=== FILE: README.md ===
# StudEz Feed client: local state logic in Dafny

StudEz Feed is an Android app in which students submit feedback on their
courses and administrators moderate it. This project models the app's local
state logic as pure functions. The Compose screens and the Retrofit calls
around that logic are not modelled. The modelled parts are:

- **The preferences store** (`SharedPrefsHelper`, and the separate
  `user_session` file behind `SessionManager`). It is a `map<string, Value>`
  holding the session token, the `is_logged_in` and `is_admin` flags, the
  offline feedback queue and one draft per category.
- **Fail-closed token expiry.** A token whose `.`-split is not three parts,
  or whose middle part does not decode to an `exp`, counts as expired. Any
  read of an expired token purges the store. In `SharedPrefsHelper` the purge
  is `clearAll()`, which wipes the queue and every draft as well.
- **The draft codec.** A draft is encoded as `k:v` pairs joined by `;`.
  Decoding drops every segment that does not split into exactly two parts.
- **Feedback submission and sync** (`FeedbackViewModel`). An online submit
  goes to the server. An offline submit appends an `"unsynced"` record to the
  queue. Sync sends the queue and clears it only when the server accepts it.
- **Session transitions.** These are login and logout (`AuthViewModel`) and
  the start route `MainActivity` picks at launch.
- **The password-strength label** (`getPasswordStrength`). It is modelled
  with the semantics of Android's `java.util.regex`, which is backed by ICU:
  `matches()` must consume the whole input, `\d` is any character of
  Unicode general category Nd (decimal digit, Unicode 15.0 as in ICU 72),
  and `.` refuses every ICU line terminator: `\n`, U+000B, U+000C, `\r`,
  U+0085, U+2028 and U+2029.
- **Logic embedded in the screens**, each `onClick` body taken as a function
  of its inputs:
  - the feedback form's guards, answer filtering, text and post-message reset;
  - the template editor's list edits and save validation;
  - the template edit buffers and the payload zipped from them;
  - the admin list's filter, search and sort pipeline, and its snackbar mapping;
  - the user list after an update or a delete;
  - the admin view-model's question formatting and action messages.

The wall clock is a parameter. So is connectivity, and so is every server
reply. Base64url decoding and JSON parsing of the token's middle segment are
one parameter, `payloadExp: string -> Option<int>`, which yields `None`
wherever the source would throw. Kotlin `Map<String,String>` values are
association lists with unique keys (`Assoc.Entries`). Their iteration order
matters for `joinToString`. For the `LinkedHashMap` that `toMap()` builds it
is insertion order, the list order. The feedback form's answers live in a
Compose `mutableStateMapOf`, which iterates in an order set by the keys'
hashes. That order is a parameter of Save Draft and Submit: a listing of the
keys (`Assoc.IsKeyOrder`).

A submit's result reaches the feedback form through a callback field of the
view-model, which the screen sets only after it has called `submitFeedback`.
The model tracks whether a callback is installed (`FeedbackForm.Round`).

Where the code differs from what its comments and names suggest, the model
follows the code:

- A token is rejected when its part count is anything other than three, not
  only when it has fewer parts.
- Syncing without a valid token is not free of side effects. When the stored
  token has expired, the token read that precedes the abort wipes the whole
  store, queue included (`FeedbackSync.ExpiredSyncLosesQueue`).
- The "clear draft after submission" step never clears the submitted draft.
  See the findings below.
- The offline record's `_id` is the clock reading in milliseconds. Nothing
  here claims that it is unique.

## Model

All source paths are under `app/src/main/java/com/example/studez_feed/`, written out in full in the table.

| member | source | states |
|---|---|---|
| Jwt.MalformedIsExpired | app/src/main/java/com/example/studez_feed/utils/SharedPrefsHelper.kt:139-142 | a token without exactly two dots (a `.`-split of any length but three) is expired at every clock reading |
| Jwt.ThreeSegmentExpiry | app/src/main/java/com/example/studez_feed/utils/SharedPrefsHelper.kt:139-155 | for a token of three dot-free segments, expired iff the middle segment yields no `exp` or `exp` is below the current second; `exp` equal to the current second is not expired |
| Jwt.ExpiryIsMonotone | app/src/main/java/com/example/studez_feed/utils/SessionManager.kt:71-87 | a token expired at one time stays expired at every later time (fail-closed decoding included) |
| SharedPrefs.DraftKeyDistinct | app/src/main/java/com/example/studez_feed/utils/SharedPrefsHelper.kt:101-106 | draft keys never collide with the session keys, with the queue key, or with each other for different categories |
| SharedPrefs.SaveUserSession | app/src/main/java/com/example/studez_feed/utils/SharedPrefsHelper.kt:35-41 | the token and both flags are written, with logged-in set and admin equal to the argument; every other key is unchanged |
| SharedPrefs.GetUserToken | app/src/main/java/com/example/studez_feed/utils/SharedPrefsHelper.kt:44-54 | a token comes back iff one is stored and it is unexpired, and the store is then untouched; an absent token leaves the store as it was; a stored but expired token empties the whole store |
| SharedPrefs.IsLoggedIn | app/src/main/java/com/example/studez_feed/utils/SharedPrefsHelper.kt:57-59 | true iff the flag is set and a valid token is read; when the flag is unset, no token read happens and so no purge |
| SharedPrefs.SaveOfflineFeedback | app/src/main/java/com/example/studez_feed/utils/SharedPrefsHelper.kt:67-75 | the queue read back is the list saved, in order, and no other key changes |
| SharedPrefs.ClearOfflineFeedback | app/src/main/java/com/example/studez_feed/utils/SharedPrefsHelper.kt:95-98 | the queue reads as empty, its key is gone, and no other key changes |
| SharedPrefs.SaveDraft | app/src/main/java/com/example/studez_feed/utils/SharedPrefsHelper.kt:101-106 | only the category's draft key is written |
| SharedPrefs.LoadDraft | app/src/main/java/com/example/studez_feed/utils/SharedPrefsHelper.kt:109-117 | the loaded draft never repeats a question (an absent draft loads as empty) |
| SharedPrefs.ClearDraft | app/src/main/java/com/example/studez_feed/utils/SharedPrefsHelper.kt:120-123 | the category's draft then loads empty, and every other key is untouched |
| SharedPrefs.ClearAllForgetsEverything | app/src/main/java/com/example/studez_feed/utils/SharedPrefsHelper.kt:126-136 | after `clearAll()` there is no token, no flag, an empty queue and no draft for any category |
| SharedPrefs.ExpiredReadWipesQueueAndDrafts | app/src/main/java/com/example/studez_feed/utils/SharedPrefsHelper.kt:44-54 | reading an expired token returns null and leaves no token, no flag, an empty queue and no draft |
| SharedPrefs.SessionRoundTrip | app/src/main/java/com/example/studez_feed/utils/SharedPrefsHelper.kt:35-64 | after `saveUserSession(t, a)`, `isAdmin()` is `a`, the logged-in flag is set, and an unexpired `t` is read back and logs the user in |
| SharedPrefs.DraftRoundTrip | app/src/main/java/com/example/studez_feed/utils/SharedPrefsHelper.kt:101-117 | a map whose keys and values hold neither `;` nor `:` loads back exactly as saved, in order, the empty map included |
| SharedPrefs.DraftWritesAreLocal | app/src/main/java/com/example/studez_feed/utils/SharedPrefsHelper.kt:101-123 | saving or clearing one category's draft changes no other category's draft, the queue or the token |
| SharedPrefs.ClearQueueKeepsSessionAndDrafts | app/src/main/java/com/example/studez_feed/utils/SharedPrefsHelper.kt:95-98 | clearing the queue leaves the token read, both flags and every draft as they were |
| DraftCodec.Decode | app/src/main/java/com/example/studez_feed/utils/SharedPrefsHelper.kt:110-116 | the decoded draft has unique keys, whatever the stored text |
| DraftCodec.EntryRoundTrip | app/src/main/java/com/example/studez_feed/utils/SharedPrefsHelper.kt:102-113 | one `k:v` segment of separator-free text decodes to the same pair |
| DraftCodec.RoundTrip | app/src/main/java/com/example/studez_feed/utils/SharedPrefsHelper.kt:101-117 | decoding the encoding of a separator-free map gives the map back, in order |
| DraftCodec.SplitAppend | app/src/main/java/com/example/studez_feed/utils/SharedPrefsHelper.kt:111 | splitting a text joined at a separator splits each side |
| DraftCodec.DecodeSegmentsAppend | app/src/main/java/com/example/studez_feed/utils/SharedPrefsHelper.kt:111-114 | decoding distributes over concatenated segment lists |
| DraftCodec.DecodeIgnoresMalformedSegment | app/src/main/java/com/example/studez_feed/utils/SharedPrefsHelper.kt:111-114 | a trailing segment that does not split into exactly two parts on `:` is dropped without affecting the rest |
| SessionManager.SaveUserSession | app/src/main/java/com/example/studez_feed/utils/SessionManager.kt:20-27 | the token is stored, logged-in is set and admin equals the argument; nothing else changes |
| SessionManager.LogoutUser | app/src/main/java/com/example/studez_feed/utils/SessionManager.kt:58-68 | the file is emptied: no token remains and neither flag is set |
| SessionManager.GetUserToken | app/src/main/java/com/example/studez_feed/utils/SessionManager.kt:30-41 | an unexpired stored token is returned and the store is untouched; absent gives null with no change; a stored token that has expired gives null, and the store is then exactly what `logoutUser()` leaves, the empty file |
| SessionManager.IsLoggedIn | app/src/main/java/com/example/studez_feed/utils/SessionManager.kt:44-48 | true iff the flag is set and a valid token is read; the token read (and its purge) happens whatever the flag says |
| SessionManager.EagerPurgeDiffersFromHelper | app/src/main/java/com/example/studez_feed/utils/SessionManager.kt:44-48 | with the flag unset and an expired token, this `isLoggedIn` purges the file while SharedPrefsHelper's leaves it untouched |
| SessionManager.LogoutSignsOut | app/src/main/java/com/example/studez_feed/utils/SessionManager.kt:51-68 | after `logoutUser()`, no token can be read, `isAdmin()` is false and `isLoggedIn()` is false |
| SessionManager.SessionRoundTrip | app/src/main/java/com/example/studez_feed/utils/SessionManager.kt:20-55 | a freshly saved unexpired session is read back whole and logs the user in |
| FeedbackSync.OfflineRecord | app/src/main/java/com/example/studez_feed/viewmodel/FeedbackViewModel.kt:46-51 | the record has exactly the four fields, status "unsynced", and an `_id` that parses back to the clock reading |
| FeedbackSync.SubmitFeedback | app/src/main/java/com/example/studez_feed/viewmodel/FeedbackViewModel.kt:29-60 | online: one call, the store untouched, and the server's response reported, or a non-null "failed" response when there was none; offline: no call, a "Saved Offline"/"success" report, the queue extended by exactly one record at the end, and no other key changed |
| FeedbackSync.SyncOfflineFeedback | app/src/main/java/com/example/studez_feed/viewmodel/FeedbackViewModel.kt:71-100 | no valid token means no call and only the token read's effect; with a token, a call is made iff the queue is non-empty, and it carries the stored token and the whole queue in order; the queue is cleared only when the server accepts, otherwise the store is unchanged |
| FeedbackSync.SyncSuccessClearsOnlyTheQueue | app/src/main/java/com/example/studez_feed/viewmodel/FeedbackViewModel.kt:91-98 | an accepted sync empties the queue and keeps the session; a refused one leaves the store exactly as it was |
| FeedbackSync.ExpiredSyncLosesQueue | app/src/main/java/com/example/studez_feed/viewmodel/FeedbackViewModel.kt:72-76 | with an expired stored token, sync makes no call and the queue is already gone |
| FeedbackSync.OfflineQueueIsAppendOnly | app/src/main/java/com/example/studez_feed/viewmodel/FeedbackViewModel.kt:42-58 | any run of offline submits keeps the earlier queue as a prefix and appends one record per submit, in order |
| Auth.Login | app/src/main/java/com/example/studez_feed/viewmodel/AuthViewModel.kt:40-55 | success saves the response's token and admin flag, sets logged-in and changes nothing else before reporting; failure reports null with the store unchanged |
| Auth.Logout | app/src/main/java/com/example/studez_feed/viewmodel/AuthViewModel.kt:72-96 | the call carries the token read; no valid token reports false with no call; server success clears the whole store and reports true; server failure reports false and keeps the session |
| Auth.IsUserLoggedIn | app/src/main/java/com/example/studez_feed/viewmodel/AuthViewModel.kt:30-32 | true exactly when an unexpired token is stored, whatever the logged-in flag says |
| Auth.LoggedInChecksDiffer | app/src/main/java/com/example/studez_feed/viewmodel/AuthViewModel.kt:30-32 | a stored valid token with the flag unset is logged in for the view-model but not for the helper |
| Auth.LoginThenLogout | app/src/main/java/com/example/studez_feed/viewmodel/AuthViewModel.kt:40-96 | after a login with an unexpired token, a consented logout empties the store and a refused one keeps it |
| StartRoute.StartRoute | app/src/main/java/com/example/studez_feed/MainActivity.kt:40-71 | no valid token routes to login; a valid token still unexpired at the second check routes to "admin_dashboard/" or "home/" plus the token by the admin flag, with no store change; a token expiring between the reads routes to login over an empty store |
| StartRoute.SecondCheckUnreachableUnderFixedClock | app/src/main/java/com/example/studez_feed/MainActivity.kt:41-58 | with one clock reading for both checks the second check never fires, and the route depends only on the token read and the flag |
| StartRoute.ExpiredTokenRoutesToLogin | app/src/main/java/com/example/studez_feed/MainActivity.kt:41-52 | an expired stored token routes to login, and the admin flag read afterwards is false |
| StartRoute.ExpiryBetweenReadsRoutesToLogin | app/src/main/java/com/example/studez_feed/MainActivity.kt:53-58 | a token valid at the first read but expired at the second routes to login over an empty store |
| Password.LookaheadIsContainment | app/src/main/java/com/example/studez_feed/utils/PasswordUtils.kt:8-10 | on a single-line input, `(?=.*C)` holds iff the input holds a character of class C |
| Password.AllLookaheadsAreContainments | app/src/main/java/com/example/studez_feed/utils/PasswordUtils.kt:8-10 | a chain of lookaheads holds iff every one of its classes occurs |
| Password.MatchesPlainly | app/src/main/java/com/example/studez_feed/utils/PasswordUtils.kt:8-10 | a pattern matches iff the input is single-line, its length is in range and every class occurs |
| Password.StrongIff | app/src/main/java/com/example/studez_feed/utils/PasswordUtils.kt:10-13 | "Strong" iff exactly ten characters, none an ICU line terminator, with an ASCII lowercase letter, an ASCII uppercase letter, a decimal digit of any script and one of the listed specials |
| Password.MediumIff | app/src/main/java/com/example/studez_feed/utils/PasswordUtils.kt:9-14 | "Medium" iff five to nine characters, none an ICU line terminator, with an ASCII lowercase letter, an ASCII uppercase letter and a decimal digit of any script |
| Password.WeakIff | app/src/main/java/com/example/studez_feed/utils/PasswordUtils.kt:8-15 | "Weak" iff one to four single-line characters including an ASCII letter |
| Password.NoLabelOtherwise | app/src/main/java/com/example/studez_feed/utils/PasswordUtils.kt:8-16 | the empty password, anything longer than ten characters and anything with a line terminator get the empty label |
| Password.ArabicIndicDigitCounts | app/src/main/java/com/example/studez_feed/utils/PasswordUtils.kt:9 | "Abcd" followed by ARABIC-INDIC DIGIT ONE (U+0661) is "Medium": `\d` accepts a non-ASCII decimal digit |
| Password.VerticalTabEndsLine | app/src/main/java/com/example/studez_feed/utils/PasswordUtils.kt:8-16 | "Abc1" followed by a vertical tab gets the empty label: `.` does not match U+000B |
| Password.BranchOrderIrrelevant | app/src/main/java/com/example/studez_feed/utils/PasswordUtils.kt:12-17 | checking weak, medium, strong in the reverse order gives the same label for every input |
| FeedbackForm.SelectCategory | app/src/main/java/com/example/studez_feed/screens/FeedbackScreen.kt:45-56 | a changed, non-empty category replaces the answers with its loaded draft; an unchanged or empty one leaves them |
| FeedbackForm.SelectAnswer | app/src/main/java/com/example/studez_feed/screens/FeedbackScreen.kt:143-146 | the question now maps to the choice, every other question keeps its answer, and keys stay unique |
| Assoc.ArrangeKeepsLookups | app/src/main/java/com/example/studez_feed/screens/FeedbackScreen.kt:41 | listing the state map's entries in any of its iteration orders gives unique keys and the same answer for every question |
| FeedbackForm.SaveDraftPressed | app/src/main/java/com/example/studez_feed/screens/FeedbackScreen.kt:164-172 | a blank category writes nothing and shows the error; otherwise only that category's draft key is written and "✅ Draft Saved!" is shown; a separator-free draft loads back in the state map's iteration order, with every question mapped to its selected answer |
| FeedbackForm.AnswersForTemplate | app/src/main/java/com/example/studez_feed/screens/FeedbackScreen.kt:199-200 | the kept answers are a subsequence of the selected ones, and a question keeps its answer iff it belongs to the loaded template |
| FeedbackForm.SubmittedAnswers | app/src/main/java/com/example/studez_feed/screens/FeedbackScreen.kt:199-200 | the answers sent are a subsequence of the state map's entries in its iteration order, with unique keys; a question keeps its answer iff it belongs to the loaded template; none are left iff no template question has an answer |
| FeedbackForm.SubmitPressed | app/src/main/java/com/example/studez_feed/screens/FeedbackScreen.kt:184-227 | while submitting nothing happens; a blank category or no answers gives its error and no call; a call is made iff neither holds and some question of the loaded template has an answer; the call carries the category and the text of the submitted answers |
| FeedbackForm.FeedbackResultReceived | app/src/main/java/com/example/studez_feed/screens/FeedbackScreen.kt:215-221 | submitting ends, and the success message is shown iff the response is non-null |
| FeedbackForm.MessageEffect | app/src/main/java/com/example/studez_feed/screens/FeedbackScreen.kt:59-68 | any "✅" message empties the form, and the only draft touched is the one under the empty category, so every real category's draft survives |
| FeedbackForm.MessageEffectFixed | app/src/main/java/com/example/studez_feed/screens/FeedbackScreen.kt:59-68 | the form is emptied as before, and the submitted category's draft is cleared only after the submit-success message |
| FeedbackForm.FeedbackResultReceivedFixed | app/src/main/java/com/example/studez_feed/screens/FeedbackScreen.kt:215-221 | success is shown iff the response is non-null and not marked "failed" |
| FeedbackForm.FailedSubmitShownAsSuccess | app/src/main/java/com/example/studez_feed/viewmodel/FeedbackViewModel.kt:39 | an online submit with no server response is reported as "failed" yet shown as "✅ Feedback submitted successfully!" |
| FeedbackForm.SubmitRound | app/src/main/java/com/example/studez_feed/screens/FeedbackScreen.kt:213-222 | a press that makes no call changes only the form; a call installs the callback; an online submit, or one made with a callback already installed, ends with the success message; an offline submit with no callback yet queues its record and leaves the form submitting with no message |
| FeedbackForm.FirstOfflineSubmitNeverReported | app/src/main/java/com/example/studez_feed/viewmodel/FeedbackViewModel.kt:42-57 | the first offline submit after the screen opens queues one record, but the form stays submitting with no message and a further Submit press does nothing |
| FeedbackForm.SubmitRoundFixed | app/src/main/java/com/example/studez_feed/screens/FeedbackScreen.kt:213-222 | with the callback installed before the call, every submit that makes a call ends submitting and shows a message; offline the queue gains exactly the submitted record, and online the store is unchanged |
| FeedbackForm.FixedResultMatchesOutcome | app/src/main/java/com/example/studez_feed/screens/FeedbackScreen.kt:215-221 | with the callback installed first and the status honoured, success is shown iff the feedback was queued offline or the server returned a response not marked "failed", whether or not a callback existed before |
| FeedbackForm.FixedRoundResetsOnSuccess | app/src/main/java/com/example/studez_feed/screens/FeedbackScreen.kt:59-68 | with both fixes, the reset follows a submit iff it succeeded, and it then clears the submitted category's draft |
| FeedbackForm.SubmittedDraftSurvivesReset | app/src/main/java/com/example/studez_feed/screens/FeedbackScreen.kt:63-66 | whatever draft was saved for a non-empty category still loads, unchanged, after the reset that follows "✅ Feedback submitted successfully!" |
| FeedbackForm.FixedResetClearsOnlySubmittedDraft | app/src/main/java/com/example/studez_feed/screens/FeedbackScreen.kt:59-68 | with the fix, a "Draft Saved" reset keeps the draft it wrote, and a submit reset leaves the category's draft empty |
| FeedbackForm.FeedbackTextSegments | app/src/main/java/com/example/studez_feed/screens/FeedbackScreen.kt:208 | the submitted text splits on `;` into one `question: answer` segment per kept answer, in order, each after the first behind one space |
| TemplateEditor.AddQuestion | app/src/main/java/com/example/studez_feed/screens/CreateFeedbackQuestionsScreen.kt:123 | the old list is a prefix, followed by one question `("", [""])` |
| TemplateEditor.UpdateQuestion | app/src/main/java/com/example/studez_feed/screens/CreateFeedbackQuestionsScreen.kt:97-99 | only question i's text changes |
| TemplateEditor.AddChoice | app/src/main/java/com/example/studez_feed/screens/CreateFeedbackQuestionsScreen.kt:100-104 | only question i changes, gaining one blank choice at the end |
| TemplateEditor.UpdateChoice | app/src/main/java/com/example/studez_feed/screens/CreateFeedbackQuestionsScreen.kt:105-110 | only choice j of question i changes |
| TemplateEditor.RemoveChoice | app/src/main/java/com/example/studez_feed/screens/CreateFeedbackQuestionsScreen.kt:111-116 | only question i changes, losing choice j while the others keep their order |
| TemplateEditor.RemoveQuestion | app/src/main/java/com/example/studez_feed/screens/CreateFeedbackQuestionsScreen.kt:117 | question i is gone, and the rest keep their order |
| TemplateEditor.SaveQuestions | app/src/main/java/com/example/studez_feed/screens/CreateFeedbackQuestionsScreen.kt:135-155 | an empty category is rejected first, then any blank question or choice; saving succeeds iff neither applies (an empty list passes); the payload has one entry per question in order, with its text and all its choices |
| TemplateEditor.ValidatedChoicesKept | app/src/main/java/com/example/studez_feed/screens/CreateFeedbackQuestionsScreen.kt:140-153 | after validation the blank-choice filter removes nothing |
| TemplateEditor.SavedPayloadSurvivesFormatting | app/src/main/java/com/example/studez_feed/viewmodel/AdminFeedbackViewModel.kt:24-29 | the screen's payload passes the view-model's formatting unchanged |
| TemplateEditor.NewQuestionBlocksSave | app/src/main/java/com/example/studez_feed/screens/CreateFeedbackQuestionsScreen.kt:123-147 | right after Add Question, saving is rejected |
| TemplateEdit.InitBuffers | app/src/main/java/com/example/studez_feed/screens/ManageFeedbackQuestionsScreen.kt:147-148 | the buffers start with the template's texts and choice lists, lined up with it |
| TemplateEdit.EditQuestion | app/src/main/java/com/example/studez_feed/screens/ManageFeedbackQuestionsScreen.kt:154 | only `updatedQuestions[i]` changes |
| TemplateEdit.EditChoice | app/src/main/java/com/example/studez_feed/screens/ManageFeedbackQuestionsScreen.kt:161-165 | only `updatedChoices[i][j]` changes |
| TemplateEdit.EditsKeepAlignment | app/src/main/java/com/example/studez_feed/screens/ManageFeedbackQuestionsScreen.kt:151-165 | both edits keep the buffers lined up with the template |
| TemplateEdit.Payload | app/src/main/java/com/example/studez_feed/screens/ManageFeedbackQuestionsScreen.kt:176-181 | entry k pairs question text k with choice list k, one entry per question text |
| TemplateEdit.PayloadMatchesTemplateSize | app/src/main/java/com/example/studez_feed/screens/ManageFeedbackQuestionsScreen.kt:176-181 | buffers lined up with the template give one payload entry per template question |
| TemplateEdit.UneditedPayloadIsTemplate | app/src/main/java/com/example/studez_feed/screens/ManageFeedbackQuestionsScreen.kt:147-181 | saving without edits sends the template's own questions and choices |
| TemplateEdit.EditedPayloadKeepsSize | app/src/main/java/com/example/studez_feed/screens/ManageFeedbackQuestionsScreen.kt:151-181 | after any sequence of edits, the payload still has exactly the template's question count |
| TemplateEdit.OpenSection | app/src/main/java/com/example/studez_feed/screens/ManageFeedbackQuestionsScreen.kt:132-148 | expanding a card shows its template with buffers lined up with it |
| TemplateEdit.Refresh | app/src/main/java/com/example/studez_feed/screens/ManageFeedbackQuestionsScreen.kt:74-78 | a list refresh changes the template shown at a position and keeps the buffers remembered there |
| TemplateEdit.SaveChanges | app/src/main/java/com/example/studez_feed/screens/ManageFeedbackQuestionsScreen.kt:174-183 | the update goes to the shown template's category and carries the payload zipped from the buffers |
| TemplateEdit.StaleBuffersAfterRefresh | app/src/main/java/com/example/studez_feed/screens/ManageFeedbackQuestionsScreen.kt:147-183 | after a refresh puts another template at an expanded card's position, drawing indexes past the kept buffers when it has more questions, and Save Changes sends the previous template's texts and choices under the new category |
| TemplateEdit.RefreshKeyed | app/src/main/java/com/example/studez_feed/screens/ManageFeedbackQuestionsScreen.kt:147-148 | with the buffers keyed on the template, a changed template gets fresh buffers and an unchanged one keeps them |
| TemplateEdit.KeyedRefreshStaysAligned | app/src/main/java/com/example/studez_feed/screens/ManageFeedbackQuestionsScreen.kt:147-183 | with keyed buffers, a refresh keeps them lined up with the shown template, and an unedited save sends that template under its own category |
| Assoc.ListOrderIsKeyOrder | app/src/main/java/com/example/studez_feed/screens/FeedbackScreen.kt:41 | every map with unique keys has an iteration order listing each key once, so the order that Save Draft and Submit take always exists; listing by the map's own order gives the map back |
| FeedbackModeration.Insert | app/src/main/java/com/example/studez_feed/screens/FeedbackManagementScreen.kt:125 | inserting into a list in descending id order keeps that order and adds exactly the one item |
| FeedbackModeration.SortByIdDesc | app/src/main/java/com/example/studez_feed/screens/FeedbackManagementScreen.kt:125 | the result is in descending `_id` string order and is a permutation of the input |
| FeedbackModeration.Displayed | app/src/main/java/com/example/studez_feed/screens/FeedbackManagementScreen.kt:121-125 | the shown items are in descending id order; an item whose status equals the filter (or the filter is "All") and whose feedback contains the query ignoring case is shown exactly as many times as it was fetched, and any other item not at all |
| FeedbackModeration.EmptyQueryMatches | app/src/main/java/com/example/studez_feed/screens/FeedbackManagementScreen.kt:124 | the empty query is found in every feedback |
| FeedbackModeration.AllAndEmptyIsPermutation | app/src/main/java/com/example/studez_feed/screens/FeedbackManagementScreen.kt:122-125 | with "All" and an empty query, the shown list is a permutation of the fetched list |
| FeedbackModeration.ToastMessage | app/src/main/java/com/example/studez_feed/screens/FeedbackManagementScreen.kt:59-64 | "approved", then "rejected", then "deleted" (ignoring case) pick the three snackbar texts in that order of precedence; any other message is shown unchanged |
| FeedbackModeration.MatchNeedsLetter | app/src/main/java/com/example/studez_feed/screens/FeedbackManagementScreen.kt:60-62 | a case-insensitive match of a lowercase letter needs that letter in one case or the other in the text |
| FeedbackModeration.ApproveShowsApproved | app/src/main/java/com/example/studez_feed/screens/FeedbackManagementScreen.kt:187 | a successful Approve shows "Feedback Approved ✅" |
| FeedbackModeration.RejectShowsRejected | app/src/main/java/com/example/studez_feed/screens/FeedbackManagementScreen.kt:192 | a successful Reject shows "Feedback Rejected ❌" |
| FeedbackModeration.DeleteShowsDeleted | app/src/main/java/com/example/studez_feed/screens/FeedbackManagementScreen.kt:197 | a successful Delete shows "Feedback Deleted 🗑️" |
| UserList.AfterDelete | app/src/main/java/com/example/studez_feed/screens/ManageUsersScreen.kt:160-166 | failure leaves the list unchanged; success keeps the others in order (a subsequence), every user with another id exactly as many times as it was listed, and no user with the deleted id |
| UserList.Without | app/src/main/java/com/example/studez_feed/screens/ManageUsersScreen.kt:163 | the result is a subsequence of the list; a user with an id other than the deleted one occurs exactly as many times as it was listed, and one with the deleted id not at all |
| UserList.ReplaceById | app/src/main/java/com/example/studez_feed/screens/ManageUsersScreen.kt:135 | the length is kept, every entry with the updated id becomes the updated user, and the others stay |
| UserList.AfterUpdate | app/src/main/java/com/example/studez_feed/screens/ManageUsersScreen.kt:132-138 | the list is replaced by id only on success with a user; otherwise it is unchanged |
| UserList.ReplaceByIdIdempotent | app/src/main/java/com/example/studez_feed/screens/ManageUsersScreen.kt:135 | applying the same update twice is applying it once, and users with other ids stay listed |
| UserList.UpdateKeepsIds | app/src/main/java/com/example/studez_feed/screens/ManageUsersScreen.kt:135 | every position keeps its id, and the updated user shows wherever its id was listed |
| UserList.DeleteAfterUpdate | app/src/main/java/com/example/studez_feed/screens/ManageUsersScreen.kt:135-163 | deleting a user after updating it gives the same list as deleting it without the update |
| AdminFeedback.FormatQuestion | app/src/main/java/com/example/studez_feed/viewmodel/AdminFeedbackViewModel.kt:25-28 | exactly the keys "question" and "choices"; a string question and a list of choices are kept, and anything else becomes "" or the empty list |
| AdminFeedback.FormatQuestions | app/src/main/java/com/example/studez_feed/viewmodel/AdminFeedbackViewModel.kt:24-29 | the number and order of questions are kept, each one formatted |
| AdminFeedback.FormatQuestionsIdempotent | app/src/main/java/com/example/studez_feed/viewmodel/AdminFeedbackViewModel.kt:24-29 | formatting an already formatted list changes nothing |
| AdminFeedback.WellShapedQuestionsUnchanged | app/src/main/java/com/example/studez_feed/viewmodel/AdminFeedbackViewModel.kt:26-27 | questions already of the expected shape are sent as they are |
| AdminFeedback.UpdateFeedbackStatus | app/src/main/java/com/example/studez_feed/viewmodel/AdminFeedbackViewModel.kt:47-62 | the status is sent with every ASCII uppercase letter lowered and no uppercase left; success reports "Feedback <sent status> successfully ✅" and refreshes; failure reports "Failed to update feedback ❌" with no refresh |
| AdminFeedback.DeleteFeedback | app/src/main/java/com/example/studez_feed/viewmodel/AdminFeedbackViewModel.kt:64-75 | success reports the deleted message and refreshes; failure reports the failure message without refreshing |
| AdminFeedback.SentStatusIsStable | app/src/main/java/com/example/studez_feed/viewmodel/AdminFeedbackViewModel.kt:48 | sending the already lowered status again gives the same update |

## Left out

- Compose layout, colours (including the password label's colour), icons, snackbars and toasts other than their texts, and navigation wiring are not modelled: they carry no stateable logic.
- Retrofit, the repositories and the server are not modelled. Each server reply is an input: success or failure, with an optional body.
- Connectivity monitoring (`FeedbackViewModel.kt:103-139`) is not modelled. "Online" is a boolean input, and sync is an operation invoked explicitly.
- Base64url and JSON decoding of the token's middle segment are the `payloadExp` parameter, because they are foreign libraries. The queue's JSON array encoding is not modelled: the queue is stored as a list of records, so the sync's `toString()` of each value is the identity.
- The wall clock is a parameter. No uniqueness of the millisecond `_id` is claimed.
- Concurrency is not modelled: `apply()`'s asynchronous commit, overlapping syncs, and the singleton's locking. For the submit callback the model tracks only whether one is installed, taking any installed callback to write the current screen's state; a callback left by an earlier, since recreated screen is not modelled.
- The hash order in which `mutableStateMapOf` iterates is not computed. It is a parameter, and the model states what holds for every order.
- Password.IsDecimalDigit: the set of decimal digits is Unicode 15.0's, as in the ICU 72 of Android 14; other Android versions ship other Unicode versions.
- Logging is not modelled.
- The 2-second delay before the feedback form resets is not modelled, and the reset is taken as the next step after the message.
- The template fetch that a category change starts is not modelled: its result arrives through `FeedbackForm.TemplateLoaded`, at any later step.
- Android's `getString`/`getBoolean` throw on a value of the wrong type. The model reads such a value as absent. The store the helper writes is always well typed (`SharedPrefs.WellTyped` is preserved by every write).
- The repository-only operations of the admin view-model (`getAllFeedback`, `updateFeedbackTemplate`, `deleteFeedbackTemplate`) are not modelled, because they pass their arguments through. Their refresh is the `refresh` flag of the reports.
- `SessionManager.GetUserToken`'s purge is not modelled as the recursive call it makes. In the source, `logoutUser()` runs `clear()` and the later reads find no token, so the purge is modelled as a direct clear.
- Screen-level index errors are not modelled as exceptions. The list edits require indices of displayed rows, which is what the screens pass while the rows and the buffers line up. The template edit section is the exception: its buffers belong to a list position and can fall out of line after a refresh. `TemplateEdit.StaleBuffersAfterRefresh` states when drawing would index past them, and the exception itself is not modelled.
- AdminFeedback.UpdateFeedbackStatus: `lowercase()` is modelled for ASCII letters only, not for the full Unicode case mapping.
- FeedbackModeration.Displayed: the case-insensitive search folds ASCII letters only, not all Unicode letters.
- FeedbackModeration.SortByIdDesc: ids are compared by character, where Kotlin compares UTF-16 code units, so the two orders differ for characters outside the Basic Multilingual Plane. The stability of `sortedByDescending` (equal ids keep their fetched order) is not stated.
- FeedbackModeration.ToastMessage: the failure messages ("Failed to update feedback ❌", "Failed to delete feedback ❌") pass through unchanged by the general contract, but this is not proved for those literal texts.
- Text.IsBlank: Kotlin's `isWhitespace` is written out as a fixed character set.

## Findings

| source | as written | input that shows it | evidently intended | confidence | as-written member | corrected member |
|---|---|---|---|---|---|---|
| app/src/main/java/com/example/studez_feed/screens/FeedbackScreen.kt:59-67 | after any "✅" message the reset sets `category = ""` and then calls `clearDraft(category)`, so it clears the draft stored under the empty category | save a draft for "Course" with `Rating: Good` and submit successfully; after the reset, `loadDraft("Course")` still returns `[Rating: Good]` | clear the submitted category's draft after a successful submission, and keep the draft after "✅ Draft Saved!" | not executed | FeedbackForm.SubmittedDraftSurvivesReset | FeedbackForm.FixedResetClearsOnlySubmittedDraft |
| app/src/main/java/com/example/studez_feed/screens/FeedbackScreen.kt:215-221 | the screen treats every non-null response as success, but `submitFeedback` reports a non-null response with status "failed" when the server gives none (`FeedbackViewModel.kt:39`) | online submit whose server call returns null: the screen shows "✅ Feedback submitted successfully!" and resets the form | show "❌ Submission failed. Try again." for a response marked "failed" | not executed | FeedbackForm.FailedSubmitShownAsSuccess | FeedbackForm.FixedResultMatchesOutcome |
| app/src/main/java/com/example/studez_feed/screens/FeedbackScreen.kt:213-215 | the screen calls `submitFeedback` and only then installs `feedbackResult`; offline, `submitFeedback` runs synchronously on `Dispatchers.Main.immediate` and invokes the callback before it is installed (`FeedbackViewModel.kt:42-57`) | open the feedback screen with no connection and submit: the record is queued, but the spinner stays and the Submit button stays disabled | install the callback before calling `submitFeedback`, so every submission is reported | not executed | FeedbackForm.FirstOfflineSubmitNeverReported | FeedbackForm.SubmitRoundFixed |
| app/src/main/java/com/example/studez_feed/screens/ManageFeedbackQuestionsScreen.kt:147-148 | the edit buffers are remembered without a key, and the list items at :75 carry none, so the buffers stay with a list position when a refresh (:77) puts another template there | expand the card of a template with one question, then delete the template above it; the next template, with two questions, moves into that position: drawing reads `updatedQuestions[1]` and throws, and with equal counts Save Changes sends the old texts under the new category | key the buffers on the template (`remember(template)`) so that each template gets its own | not executed | TemplateEdit.StaleBuffersAfterRefresh | TemplateEdit.KeyedRefreshStaysAligned |

=== FILE: admin_feedback.dfy ===
/**
 * AdminFeedbackViewModel: the formatting of template questions before they
 * are sent, and the messages reported after a status change or a delete.
 * The server's replies are inputs.
 */
module AdminFeedback {
  import opened Api
  import Text

  /** A question as sent to the server: a map from "question" and "choices" to values of type `Any`. */
  type QuestionPayload = map<string, Dyn>

  const UpdateFailedMessage: string := "Failed to update feedback ❌"
  const DeletedMessage: string := "Feedback deleted successfully 🗑\U{FE0F}"
  const DeleteFailedMessage: string := "Failed to delete feedback ❌"

  /** `questionData["question"] as? String ?: ""`. */
  function QuestionField(q: QuestionPayload): Dyn
  {
    if "question" in q && q["question"].DStr? then q["question"] else DStr("")
  }

  /**
   * `questionData["choices"] as? List<String> ?: emptyList()`. The cast
   * checks only that the value is a list: the element type is erased.
   */
  function ChoicesField(q: QuestionPayload): Dyn
  {
    if "choices" in q && q["choices"].DList? then q["choices"] else DList([])
  }

  /** One formatted question: exactly the two keys, each with a value of the expected shape. */
  function FormatQuestion(q: QuestionPayload): (r: QuestionPayload)
    ensures r.Keys == {"question", "choices"}
    ensures r["question"].DStr? && r["choices"].DList?
    ensures "question" in q && q["question"].DStr? ==> r["question"] == q["question"]
    ensures !("question" in q && q["question"].DStr?) ==> r["question"] == DStr("")
    ensures "choices" in q && q["choices"].DList? ==> r["choices"] == q["choices"]
    ensures !("choices" in q && q["choices"].DList?) ==> r["choices"] == DList([])
  {
    map["question" := QuestionField(q), "choices" := ChoicesField(q)]
  }

  /** `createFeedbackTemplate`'s formatting of the incoming questions. */
  function FormatQuestions(qs: seq<QuestionPayload>): (r: seq<QuestionPayload>)
    ensures |r| == |qs|
    ensures forall i :: 0 <= i < |qs| ==> r[i] == FormatQuestion(qs[i])
  {
    seq(|qs|, i requires 0 <= i < |qs| => FormatQuestion(qs[i]))
  }

  /** Formatting an already formatted list changes nothing. */
  lemma FormatQuestionsIdempotent(qs: seq<QuestionPayload>)
    ensures FormatQuestions(FormatQuestions(qs)) == FormatQuestions(qs)
  {
    var once := FormatQuestions(qs);
    forall i | 0 <= i < |once| ensures FormatQuestion(once[i]) == once[i] {
      var a := FormatQuestion(once[i]);
      assert a.Keys == once[i].Keys;
    }
  }

  /** A question whose fields already have the expected shapes is sent as it is. */
  lemma WellShapedQuestionsUnchanged(qs: seq<QuestionPayload>)
    requires forall i :: 0 <= i < |qs| ==>
      qs[i].Keys == {"question", "choices"} && qs[i]["question"].DStr? && qs[i]["choices"].DList?
    ensures FormatQuestions(qs) == qs
  {
    forall i | 0 <= i < |qs| ensures FormatQuestion(qs[i]) == qs[i] {
      assert FormatQuestion(qs[i]).Keys == qs[i].Keys;
    }
  }

  /** What a status change sends and reports. */
  datatype StatusUpdate = StatusUpdate(sentStatus: string, success: bool, message: string, refresh: bool)

  /** The success message for a status change to `status`. */
  function UpdatedMessage(status: string): string
  {
    "Feedback " + status + " successfully ✅"
  }

  /** `updateFeedbackStatus`, with the server's reply (`response != null`) as `replied`. */
  function UpdateFeedbackStatus(status: string, replied: bool): (u: StatusUpdate)
    ensures |u.sentStatus| == |status|
    ensures forall i :: 0 <= i < |status| ==>
      u.sentStatus[i] == (if 'A' <= status[i] <= 'Z' then (status[i] as int + 32) as char else status[i])
    ensures forall i :: 0 <= i < |u.sentStatus| ==> !('A' <= u.sentStatus[i] <= 'Z')
    ensures u.success == replied && u.refresh == replied
    ensures replied ==> u.message == UpdatedMessage(u.sentStatus)
    ensures !replied ==> u.message == UpdateFailedMessage
  {
    var lower := Text.Lower(status);
    if replied then StatusUpdate(lower, true, UpdatedMessage(lower), true)
    else StatusUpdate(lower, false, UpdateFailedMessage, false)
  }

  /** What a delete reports. */
  datatype DeleteReport = DeleteReport(success: bool, message: string, refresh: bool)

  /** `deleteFeedback`, with the server's reply as `isSuccess`. */
  function DeleteFeedback(isSuccess: bool): (d: DeleteReport)
    ensures d.success == isSuccess && d.refresh == isSuccess
    ensures d.message == if isSuccess then DeletedMessage else DeleteFailedMessage
  {
    if isSuccess then DeleteReport(true, DeletedMessage, true)
    else DeleteReport(false, DeleteFailedMessage, false)
  }

  /** Lowercasing the status a second time changes nothing, so the sent status is stable. */
  lemma SentStatusIsStable(status: string, replied: bool)
    ensures UpdateFeedbackStatus(UpdateFeedbackStatus(status, replied).sentStatus, replied)
         == UpdateFeedbackStatus(status, replied)
  {
    var s := UpdateFeedbackStatus(status, replied).sentStatus;
    assert Text.Lower(s) == s;
  }
}

=== FILE: api.dfy ===
/** The request and response records exchanged with the feedback server. */
module Api {

  /** Reply to `POST auth/login`. */
  datatype AuthResponse = AuthResponse(id: string, name: string, email: string, isAdmin: bool, token: string)

  /** Reply to `POST feedback`, also used locally to report an offline save or a failure. */
  datatype FeedbackResponse = FeedbackResponse(id: string, category: string, feedback: string, status: string)

  /** One feedback entry as the admin moderation list shows it. */
  datatype AdminFeedbackItem = AdminFeedbackItem(id: string, category: string, feedback: string, status: string)

  /** One multiple-choice question of a template. */
  datatype QuestionItem = QuestionItem(question: string, choices: seq<string>)

  /** The question template of one feedback category. */
  datatype FeedbackTemplate = FeedbackTemplate(id: string, category: string, questions: seq<QuestionItem>)

  /** A user account as the admin user list shows it. */
  datatype UserProfile = UserProfile(id: string, name: string, email: string, password: string, isAdmin: bool)

  /** A value of Kotlin type `Any` inside a `Map<String, Any>` request body. */
  datatype Dyn = DStr(s: string) | DList(items: seq<Dyn>) | DOther
}

=== FILE: assoc.dfy ===
/**
 * Kotlin's `Map<String, String>` as an association list with unique keys.
 * For the insertion-ordered `LinkedHashMap` that `toMap()` builds, the list
 * order is the iteration order. A map whose iteration order follows the
 * keys' hashes (Compose's `mutableStateMapOf`) is iterated in an order given
 * separately, as a listing of its keys (`IsKeyOrder`, `Arrange`).
 */
module Assoc {
  import opened Wrappers
  import Seqs

  type Entry = (string, string)
  type Entries = seq<Entry>

  /** `m[k]`: the value stored under `k`, or null. */
  function Get(m: Entries, k: string): Option<string>
    decreases |m|
  {
    if |m| == 0 then None else if m[0].0 == k then Some(m[0].1) else Get(m[1..], k)
  }

  /** No key occurs twice, as in any Kotlin `Map`. */
  predicate UniqueKeys(m: Entries)
    decreases |m|
  {
    |m| == 0 || (Get(m[1..], m[0].0).None? && UniqueKeys(m[1..]))
  }

  /** A lookup in a concatenation finds the first list's entry first. */
  lemma {:induction false} GetAppend(a: Entries, b: Entries, k: string)
    ensures Get(a + b, k) == if Get(a, k).Some? then Get(a, k) else Get(b, k)
    decreases |a|
  {
    if |a| > 0 {
      assert (a + b)[0] == a[0] && (a + b)[1..] == a[1..] + b;
      GetAppend(a[1..], b, k);
    } else {
      assert a + b == b;
    }
  }

  /** `m[k] = v`: overwrite in place when `k` is present, otherwise append. */
  function Put(m: Entries, k: string, v: string): (r: Entries)
    ensures Get(r, k) == Some(v)
    ensures forall k' :: k' != k ==> Get(r, k') == Get(m, k')
    ensures Get(m, k).None? ==> r == m + [(k, v)]
    ensures Get(m, k).Some? ==> |r| == |m|
    ensures UniqueKeys(m) ==> UniqueKeys(r)
    decreases |m|
  {
    if |m| == 0 then [(k, v)]
    else if m[0].0 == k then [(k, v)] + m[1..]
    else [m[0]] + Put(m[1..], k, v)
  }

  /** `toMap()` folded from `acc`: each pair is put in turn, so a later pair wins. */
  function PutAll(acc: Entries, ps: Entries): (r: Entries)
    ensures UniqueKeys(acc) ==> UniqueKeys(r)
    decreases |ps|
  {
    if |ps| == 0 then acc else PutAll(Put(acc, ps[0].0, ps[0].1), ps[1..])
  }

  /** Kotlin's `pairs.toMap()`. */
  function FromPairs(ps: Entries): (r: Entries)
    ensures UniqueKeys(r)
  {
    PutAll([], ps)
  }

  /** In a list with unique keys, no key of the tail occurs in the head part. */
  lemma {:induction false} UniqueSplit(a: Entries, b: Entries)
    requires UniqueKeys(a + b) && |b| > 0
    ensures Get(a, b[0].0).None?
    decreases |a|
  {
    if |a| > 0 {
      assert (a + b)[0] == a[0] && (a + b)[1..] == a[1..] + b;
      UniqueSplit(a[1..], b);
      GetAppend(a[1..], b, a[0].0);
    }
  }

  lemma {:induction false} PutAllUnique(acc: Entries, ps: Entries)
    requires UniqueKeys(acc + ps)
    ensures PutAll(acc, ps) == acc + ps
    decreases |ps|
  {
    if |ps| == 0 {
      assert acc + ps == acc;
    } else {
      UniqueSplit(acc, ps);
      assert (acc + [ps[0]]) + ps[1..] == acc + ps;
      PutAllUnique(acc + [ps[0]], ps[1..]);
    }
  }

  /** `toMap()` on pairs with distinct keys keeps every pair, in order. */
  lemma FromPairsUnique(ps: Entries)
    requires UniqueKeys(ps)
    ensures FromPairs(ps) == ps
  {
    assert [] + ps == ps;
    PutAllUnique([], ps);
  }

  /** `m.filterKeys(p)`. */
  function FilterKeys(m: Entries, p: string -> bool): Entries
  {
    Seqs.Filter(m, (e: Entry) => p(e.0))
  }

  /** Filtering by key keeps exactly the lookups whose key passes. */
  lemma {:induction false} GetFilterKeys(m: Entries, p: string -> bool, k: string)
    ensures Get(FilterKeys(m, p), k) == if p(k) then Get(m, k) else None
    decreases |m|
  {
    if |m| > 0 {
      GetFilterKeys(m[1..], p, k);
    }
  }

  lemma {:induction false} FilterKeysUnique(m: Entries, p: string -> bool)
    requires UniqueKeys(m)
    ensures UniqueKeys(FilterKeys(m, p))
    decreases |m|
  {
    if |m| > 0 {
      FilterKeysUnique(m[1..], p);
      GetFilterKeys(m[1..], p, m[0].0);
    }
  }

  /** Filtering by key keeps the surviving entries in their original order. */
  lemma {:induction false} FilterKeysIsSubSeq(m: Entries, p: string -> bool)
    ensures Seqs.SubSeq(FilterKeys(m, p), m)
    decreases |m|
  {
    if |m| > 0 {
      FilterKeysIsSubSeq(m[1..], p);
      var r := FilterKeys(m, p);
      if p(m[0].0) {
        assert r[0] == m[0] && r[1..] == FilterKeys(m[1..], p);
      }
    }
  }

  /** The first entry under `k` sits at the returned index, and no earlier entry has key `k`. */
  lemma {:induction false} GetIndex(m: Entries, k: string) returns (i: nat)
    requires Get(m, k).Some?
    ensures i < |m| && m[i] == (k, Get(m, k).value)
    ensures forall j :: 0 <= j < i ==> m[j].0 != k
    decreases |m|
  {
    if m[0].0 == k {
      i := 0;
    } else {
      var i' := GetIndex(m[1..], k);
      i := i' + 1;
    }
  }

  /** A lookup finds the first entry whose key matches, and nothing when no key matches. */
  lemma {:induction false} GetFirst(m: Entries, k: string)
    ensures (forall j :: 0 <= j < |m| ==> m[j].0 != k) ==> Get(m, k).None?
    ensures forall i :: 0 <= i < |m| && m[i].0 == k && (forall j :: 0 <= j < i ==> m[j].0 != k) ==>
      Get(m, k) == Some(m[i].1)
    decreases |m|
  {
    if |m| > 0 {
      GetFirst(m[1..], k);
      forall i | 0 < i < |m| && m[i].0 == k && (forall j :: 0 <= j < i ==> m[j].0 != k)
        ensures Get(m, k) == Some(m[i].1)
      {
        assert m[1..][i - 1] == m[i];
        assert forall j :: 0 <= j < i - 1 ==> m[1..][j].0 != k by {
          forall j | 0 <= j < i - 1 ensures m[1..][j].0 != k { assert m[1..][j] == m[j + 1]; }
        }
      }
    }
  }

  /** Pairwise distinct keys are unique keys. */
  lemma {:induction false} DistinctKeysUnique(m: Entries)
    requires forall i, j :: 0 <= i < j < |m| ==> m[i].0 != m[j].0
    ensures UniqueKeys(m)
    decreases |m|
  {
    if |m| > 0 {
      DistinctKeysUnique(m[1..]);
      GetFirst(m[1..], m[0].0);
    }
  }

  /** `order` lists every key of `m` exactly once: one possible iteration order of `m`. */
  ghost predicate IsKeyOrder(order: seq<string>, m: Entries)
  {
    && (forall i, j :: 0 <= i < j < |order| ==> order[i] != order[j])
    && (forall k :: k in order <==> Get(m, k).Some?)
  }

  /** The entries of `m`, each key with its value, listed in the order `order` gives. */
  function Arrange(m: Entries, order: seq<string>): (r: Entries)
    requires forall k :: k in order ==> Get(m, k).Some?
    ensures |r| == |order|
    ensures forall i :: 0 <= i < |order| ==> r[i].0 == order[i] && Get(m, order[i]) == Some(r[i].1)
  {
    seq(|order|, i requires 0 <= i < |order| => (order[i], Get(m, order[i]).value))
  }

  /** Listing a map in any of its iteration orders gives the same map: the same lookups, keys unique. */
  lemma ArrangeKeepsLookups(m: Entries, order: seq<string>)
    requires IsKeyOrder(order, m)
    ensures UniqueKeys(Arrange(m, order))
    ensures forall k :: Get(Arrange(m, order), k) == Get(m, k)
  {
    var r := Arrange(m, order);
    DistinctKeysUnique(r);
    forall k ensures Get(r, k) == Get(m, k) {
      GetFirst(r, k);
      if Get(m, k).Some? {
        var i :| 0 <= i < |order| && order[i] == k;
        assert r[i].0 == k;
      }
    }
  }

  /** Every entry listed comes from `m`. */
  lemma ArrangeEntriesFromMap(m: Entries, order: seq<string>)
    requires forall k :: k in order ==> Get(m, k).Some?
    ensures forall i :: 0 <= i < |order| ==> Arrange(m, order)[i] in m
  {
    var r := Arrange(m, order);
    forall i | 0 <= i < |order| ensures r[i] in m {
      var j := GetIndex(m, order[i]);
    }
  }

  /** The keys of `m` in list order. */
  function Keys(m: Entries): (ks: seq<string>)
    ensures |ks| == |m| && forall i :: 0 <= i < |m| ==> ks[i] == m[i].0
  {
    seq(|m|, i requires 0 <= i < |m| => m[i].0)
  }

  /** For a map with unique keys, its own list order is one of its iteration orders, and listing by it changes nothing. */
  lemma {:induction false} ListOrderIsKeyOrder(m: Entries)
    requires UniqueKeys(m)
    ensures IsKeyOrder(Keys(m), m)
    ensures Arrange(m, Keys(m)) == m
    decreases |m|
  {
    if |m| > 0 {
      ListOrderIsKeyOrder(m[1..]);
      GetFirst(m[1..], m[0].0);
      var ks := Keys(m);
      assert ks[1..] == Keys(m[1..]);
      forall i, j | 0 <= i < j < |ks| ensures ks[i] != ks[j] {
        if i == 0 { assert ks[j] == m[1..][j - 1].0; }
        else { assert ks[i] == Keys(m[1..])[i - 1] && ks[j] == Keys(m[1..])[j - 1]; }
      }
      forall k ensures k in ks <==> Get(m, k).Some? {
        if k != m[0].0 {
          assert k in ks <==> k in ks[1..] by {
            if k in ks { var i :| 0 <= i < |ks| && ks[i] == k; assert i > 0 && ks[1..][i - 1] == k; }
          }
        }
      }
      var r := Arrange(m, ks);
      forall i | 0 <= i < |m| ensures r[i] == m[i] {
        if i > 0 {
          GetFirst(m, m[i].0);
          assert m[1..][i - 1] == m[i];
          var r' := Arrange(m[1..], Keys(m[1..]));
          assert r'[i - 1] == m[1..][i - 1];
        }
      }
    }
  }
}

=== FILE: auth.dfy ===
/**
 * AuthViewModel's session transitions over SharedPrefsHelper's store:
 * login saves the session the server returns, logout asks the server first
 * and clears the store only when it agrees.
 */
module Auth {
  import opened Wrappers
  import opened KeyValue
  import Jwt
  import SharedPrefs
  import opened Api

  /** The store after a login and the response reported to the screen. */
  datatype LoginOutcome = LoginOutcome(store: Store, reported: Option<AuthResponse>)

  /** The store after a logout, the token sent to `POST auth/logout` if any, and the reported result. */
  datatype LogoutOutcome = LogoutOutcome(store: Store, sentToken: Option<string>, reported: bool)

  /** `login(email, password)` given the server's `reply` (null on any failure). */
  function Login(st: Store, reply: Option<AuthResponse>): (o: LoginOutcome)
    ensures o.reported == reply
    ensures reply.None? ==> o.store == st
    ensures reply.Some? ==>
      && GetString(o.store, SharedPrefs.KeyUserToken) == Some(reply.value.token)
      && SharedPrefs.IsAdmin(o.store) == reply.value.isAdmin
      && GetBoolean(o.store, SharedPrefs.KeyIsLoggedIn, false)
      && SameOutside(st, o.store, SharedPrefs.SessionKeys)
  {
    match reply
    case None => LoginOutcome(st, None)
    case Some(r) => LoginOutcome(SharedPrefs.SaveUserSession(st, r.token, r.isAdmin), reply)
  }

  /**
   * `logout()` given whether the server call would succeed. Without a valid
   * token it reports false and calls nothing; with one, it clears the whole
   * store and reports true only when the server call succeeds.
   */
  function Logout(st: Store, nowMillis: nat, payloadExp: Jwt.ExpDecoder, serverOk: bool): (o: LogoutOutcome)
    ensures var t := SharedPrefs.GetUserToken(st, nowMillis, payloadExp);
      && o.sentToken == t.value
      && (t.value.None? ==> !o.reported && o.store == t.store)
      && (t.value.Some? && serverOk ==> o.reported && o.store == map[])
      && (t.value.Some? && !serverOk ==> !o.reported && o.store == st)
  {
    var t := SharedPrefs.GetUserToken(st, nowMillis, payloadExp);
    match t.value
    case None => LogoutOutcome(t.store, None, false)
    case Some(token) =>
      if serverOk then LogoutOutcome(SharedPrefs.ClearAll(t.store), Some(token), true)
      else LogoutOutcome(t.store, Some(token), false)
  }

  /** `isUserLoggedIn()`: a valid token exists; the logged-in flag is never consulted. */
  function IsUserLoggedIn(st: Store, nowMillis: nat, payloadExp: Jwt.ExpDecoder): (r: SharedPrefs.Read<bool>)
    ensures r.value <==> (GetString(st, SharedPrefs.KeyUserToken).Some?
                          && !Jwt.IsTokenExpired(GetString(st, SharedPrefs.KeyUserToken).value, nowMillis, payloadExp))
    ensures r.store == SharedPrefs.GetUserToken(st, nowMillis, payloadExp).store
  {
    var t := SharedPrefs.GetUserToken(st, nowMillis, payloadExp);
    SharedPrefs.Read(t.value.Some?, t.store)
  }

  /** `isAdmin()`: delegates to the store's flag. */
  function IsAdmin(st: Store): (r: bool)
    ensures r == SharedPrefs.IsAdmin(st)
  {
    SharedPrefs.IsAdmin(st)
  }

  /**
   * The view-model's `isUserLoggedIn` and the store's `isLoggedIn` disagree
   * on a store whose token is valid but whose logged-in flag is unset.
   */
  lemma LoggedInChecksDiffer(st: Store, nowMillis: nat, payloadExp: Jwt.ExpDecoder)
    requires GetString(st, SharedPrefs.KeyUserToken).Some?
    requires !Jwt.IsTokenExpired(GetString(st, SharedPrefs.KeyUserToken).value, nowMillis, payloadExp)
    requires !GetBoolean(st, SharedPrefs.KeyIsLoggedIn, false)
    ensures IsUserLoggedIn(st, nowMillis, payloadExp).value
    ensures !SharedPrefs.IsLoggedIn(st, nowMillis, payloadExp).value
  {
  }

  /** Logging in with an unexpired token and logging out with the server's consent leaves nothing behind. */
  lemma LoginThenLogout(st: Store, r: AuthResponse, nowMillis: nat, payloadExp: Jwt.ExpDecoder)
    requires !Jwt.IsTokenExpired(r.token, nowMillis, payloadExp)
    ensures var st1 := Login(st, Some(r)).store;
      && IsUserLoggedIn(st1, nowMillis, payloadExp).value
      && Logout(st1, nowMillis, payloadExp, true) == LogoutOutcome(map[], Some(r.token), true)
      && Logout(st1, nowMillis, payloadExp, false) == LogoutOutcome(st1, Some(r.token), false)
  {
  }
}

=== FILE: draft_codec.dfy ===
/**
 * The draft text format: each answer as `question:answer`, answers joined
 * by `;`. Decoding keeps only segments that split into exactly two parts
 * on `:`, then builds the map with Kotlin's `toMap()`.
 */
module DraftCodec {
  import opened Wrappers
  import Text
  import opened Assoc

  function EncodeEntry(e: Entry): string
  {
    e.0 + ":" + e.1
  }

  /** `saveDraft`'s `entries.joinToString(";") { "${it.key}:${it.value}" }`. */
  function Encode(m: Entries): string
  {
    Text.Join(seq(|m|, i requires 0 <= i < |m| => EncodeEntry(m[i])), ";")
  }

  /** One segment's `split(":")`, accepted only when it has exactly two parts. */
  function DecodeSegment(segment: string): Option<Entry>
  {
    var parts := Text.Split(segment, ':');
    if |parts| == 2 then Some((parts[0], parts[1])) else None
  }

  /** `mapNotNull` over the segments. */
  function DecodeSegments(segments: seq<string>): Entries
    decreases |segments|
  {
    if |segments| == 0 then []
    else
      match DecodeSegment(segments[0])
      case Some(e) => [e] + DecodeSegments(segments[1..])
      case None => DecodeSegments(segments[1..])
  }

  /** `loadDraft`'s parse of a stored draft string. */
  function Decode(s: string): (m: Entries)
    ensures UniqueKeys(m)
  {
    FromPairs(DecodeSegments(Text.Split(s, ';')))
  }

  /** Neither separator occurs in the text. */
  predicate Clean(s: string)
  {
    ';' !in s && ':' !in s
  }

  /** A map the format can carry: every key and value free of both separators. */
  predicate Encodable(m: Entries)
  {
    UniqueKeys(m) && forall i :: 0 <= i < |m| ==> Clean(m[i].0) && Clean(m[i].1)
  }

  lemma EntryRoundTrip(e: Entry)
    requires Clean(e.0) && Clean(e.1)
    ensures DecodeSegment(EncodeEntry(e)) == Some(e)
  {
    var parts := [e.0, e.1];
    Text.SplitJoin(parts, ':');
    assert parts[1..] == [e.1];
    assert Text.Join(parts, ":") == EncodeEntry(e);
  }

  lemma {:induction false} SegmentsRoundTrip(m: Entries)
    requires forall i :: 0 <= i < |m| ==> Clean(m[i].0) && Clean(m[i].1)
    ensures DecodeSegments(seq(|m|, i requires 0 <= i < |m| => EncodeEntry(m[i]))) == m
    decreases |m|
  {
    if |m| > 0 {
      var segs := seq(|m|, i requires 0 <= i < |m| => EncodeEntry(m[i]));
      assert segs[1..] == seq(|m[1..]|, i requires 0 <= i < |m[1..]| => EncodeEntry(m[1..][i]));
      EntryRoundTrip(m[0]);
      SegmentsRoundTrip(m[1..]);
      assert [m[0]] + m[1..] == m;
    }
  }

  /** Loading what was saved gives back the same answers in the same order, the empty map included. */
  lemma RoundTrip(m: Entries)
    requires Encodable(m)
    ensures Decode(Encode(m)) == m
  {
    var segs := seq(|m|, i requires 0 <= i < |m| => EncodeEntry(m[i]));
    if |m| == 0 {
      assert Encode(m) == "";
      assert DecodeSegment("").None?;
    } else {
      forall i | 0 <= i < |segs|
        ensures ';' !in segs[i]
      {
        assert segs[i] == m[i].0 + ":" + m[i].1;
      }
      Text.SplitJoin(segs, ';');
      SegmentsRoundTrip(m);
      FromPairsUnique(m);
    }
  }

  lemma {:induction false} SplitAppend(s: string, t: string, d: char)
    ensures Text.Split(s + [d] + t, d) == Text.Split(s, d) + Text.Split(t, d)
    decreases |s|
  {
    if |s| == 0 {
      assert s + [d] + t == [d] + t;
      assert ([d] + t)[1..] == t;
    } else {
      var u := s + [d] + t;
      assert u[0] == s[0] && u[1..] == s[1..] + [d] + t;
      SplitAppend(s[1..], t, d);
    }
  }

  lemma {:induction false} DecodeSegmentsAppend(a: seq<string>, b: seq<string>)
    ensures DecodeSegments(a + b) == DecodeSegments(a) + DecodeSegments(b)
    decreases |a|
  {
    if |a| == 0 {
      assert a + b == b;
    } else {
      assert (a + b)[0] == a[0] && (a + b)[1..] == a[1..] + b;
      DecodeSegmentsAppend(a[1..], b);
    }
  }

  /**
   * A trailing segment that does not split into exactly two parts on `:` is
   * dropped silently: the draft loads as if it were not there.
   */
  lemma DecodeIgnoresMalformedSegment(s: string, bad: string)
    requires ';' !in bad && |Text.Split(bad, ':')| != 2
    ensures Decode(s + ";" + bad) == Decode(s)
  {
    SplitAppend(s, bad, ';');
    Text.SplitPrefix(bad, "", ';');
    assert bad + "" == bad;
    assert Text.Split(bad, ';') == [bad];
    assert DecodeSegments([bad]) == [];
    DecodeSegmentsAppend(Text.Split(s, ';'), [bad]);
    assert DecodeSegments(Text.Split(s, ';')) + [] == DecodeSegments(Text.Split(s, ';'));
  }
}

=== FILE: feedback_form.dfy ===
/**
 * FeedbackScreen's form logic: draft loading when a category is chosen,
 * the Save Draft and Submit guards, the answers actually submitted and
 * their text, the response message, and the reset that follows a "✅"
 * message.
 */
module FeedbackForm {
  import opened Wrappers
  import opened KeyValue
  import opened Assoc
  import Text
  import Seqs
  import DraftCodec
  import SharedPrefs
  import FeedbackSync
  import opened Api

  const DraftSavedMessage: string := "✅ Draft Saved!"
  const DraftNeedsCategoryMessage: string := "❌ Please select a category first!"
  const NeedsCategoryMessage: string := "❌ Please select a category!"
  const NeedsAnswersMessage: string := "❌ Please answer all questions!"
  const NeedsCategoryAnswersMessage: string := "❌ Please answer questions for the selected category!"
  const SubmittedMessage: string := "✅ Feedback submitted successfully!"
  const SubmitFailedMessage: string := "❌ Submission failed. Try again."

  /**
   * The screen's remembered state. `answers` holds the selected answers as a
   * map; its list order is not the order the Compose state map iterates in,
   * which follows the keys' hashes and is passed to Save Draft and Submit as
   * a listing of the keys.
   */
  datatype Form = Form(category: string, answers: Entries, template: Option<FeedbackTemplate>,
                       message: Option<string>, submitting: bool)

  /** A form step that may also write the preferences store. */
  datatype FormStep = FormStep(form: Form, store: Store)

  /** A Submit press: the next form and the submit call it makes, if any. */
  datatype SubmitStep = SubmitStep(form: Form, call: Option<FeedbackSync.SubmitRequest>)

  /** `message.contains("✅")`. */
  predicate IsSuccess(message: Option<string>)
  {
    message.Some? && '✅' in message.value
  }

  /**
   * Choosing category `c`. The effect keyed on the category runs only when
   * the value changes, and only a non-empty category loads its draft,
   * replacing the selected answers.
   */
  function SelectCategory(f: Form, st: Store, c: string): (f': Form)
    ensures f'.category == c && f'.template == f.template && f'.message == f.message
    ensures c != f.category && c != "" ==> f'.answers == SharedPrefs.LoadDraft(st, c)
    ensures c == f.category || c == "" ==> f'.answers == f.answers
  {
    if c != f.category && c != "" then f.(category := c, answers := SharedPrefs.LoadDraft(st, c))
    else f.(category := c)
  }

  /** The template for the chosen category arrives (null when the fetch failed). */
  function TemplateLoaded(f: Form, t: Option<FeedbackTemplate>): Form
  {
    f.(template := t)
  }

  /** Picking `choice` for `question` (`selectedAnswers[question] = choice`). */
  function SelectAnswer(f: Form, question: string, choice: string): (f': Form)
    ensures Get(f'.answers, question) == Some(choice)
    ensures forall q :: q != question ==> Get(f'.answers, q) == Get(f.answers, q)
    ensures UniqueKeys(f.answers) ==> UniqueKeys(f'.answers)
  {
    f.(answers := Put(f.answers, question, choice))
  }

  /**
   * The Save Draft button, with `order` the order the state map iterates its
   * keys in. A draft the format can carry loads back in that order, with
   * every question mapped to the answer selected for it.
   */
  function SaveDraftPressed(f: Form, st: Store, order: seq<string>): (o: FormStep)
    requires IsKeyOrder(order, f.answers)
    ensures Text.IsBlank(f.category) ==>
      o.store == st && o.form == f.(message := Some(DraftNeedsCategoryMessage))
    ensures !Text.IsBlank(f.category) ==>
      && SameOutside(st, o.store, {SharedPrefs.DraftKey(f.category)})
      && o.form == f.(message := Some(DraftSavedMessage))
    ensures !Text.IsBlank(f.category) && DraftCodec.Encodable(f.answers) ==>
      && SharedPrefs.LoadDraft(o.store, f.category) == Arrange(f.answers, order)
      && forall q :: Get(SharedPrefs.LoadDraft(o.store, f.category), q) == Get(f.answers, q)
  {
    if !Text.IsBlank(f.category) then
      var listed := Arrange(f.answers, order);
      ArrangedEncodable(f.answers, order);
      ArrangeKeepsLookups(f.answers, order);
      SavedDraftLoads(st, f.category, listed);
      FormStep(f.(message := Some(DraftSavedMessage)), SharedPrefs.SaveDraft(st, f.category, listed))
    else
      FormStep(f.(message := Some(DraftNeedsCategoryMessage)), st)
  }

  /** Listing a draft the format can carry in another key order keeps it carriable. */
  lemma ArrangedEncodable(m: Entries, order: seq<string>)
    requires IsKeyOrder(order, m)
    ensures DraftCodec.Encodable(m) ==> DraftCodec.Encodable(Arrange(m, order))
  {
    if DraftCodec.Encodable(m) {
      ArrangeKeepsLookups(m, order);
      ArrangeEntriesFromMap(m, order);
    }
  }

  /** A draft the format can carry loads back as saved. */
  lemma SavedDraftLoads(st: Store, category: string, answers: Entries)
    ensures DraftCodec.Encodable(answers) ==> SharedPrefs.LoadDraft(SharedPrefs.SaveDraft(st, category, answers), category) == answers
  {
    if DraftCodec.Encodable(answers) {
      SharedPrefs.DraftRoundTrip(st, category, answers);
    }
  }

  /** The questions of the loaded template, none when no template is loaded. */
  function QuestionTexts(t: Option<FeedbackTemplate>): seq<string>
  {
    match t
    case None => []
    case Some(tpl) => seq(|tpl.questions|, i requires 0 <= i < |tpl.questions| => tpl.questions[i].question)
  }

  /** The selected answers whose question belongs to the loaded template, in selection order. */
  function AnswersForTemplate(answers: Entries, t: Option<FeedbackTemplate>): (r: Entries)
    ensures Seqs.SubSeq(r, answers)
    ensures forall q :: Get(r, q) == if q in QuestionTexts(t) then Get(answers, q) else None
    ensures UniqueKeys(answers) ==> UniqueKeys(r)
  {
    var qs := QuestionTexts(t);
    KeptAnswers(answers, qs);
    FilterKeys(answers, k => k in qs)
  }

  /** Facts about keeping only the answers whose question is in `qs`. */
  lemma KeptAnswers(answers: Entries, qs: seq<string>)
    ensures Seqs.SubSeq(FilterKeys(answers, k => k in qs), answers)
    ensures forall q :: Get(FilterKeys(answers, k => k in qs), q) == if q in qs then Get(answers, q) else None
    ensures UniqueKeys(answers) ==> UniqueKeys(FilterKeys(answers, k => k in qs))
  {
    FilterKeysIsSubSeq(answers, k => k in qs);
    forall q ensures Get(FilterKeys(answers, k => k in qs), q) == if q in qs then Get(answers, q) else None {
      GetFilterKeys(answers, k => k in qs, q);
    }
    if UniqueKeys(answers) {
      FilterKeysUnique(answers, k => k in qs);
    }
  }

  /** One answer as it appears in the submitted text: `question: answer`. */
  function AnswerText(e: Entry): string
  {
    e.0 + ": " + e.1
  }

  /** `joinToString("; ") { "${it.key}: ${it.value}" }`. */
  function FeedbackText(answers: Entries): string
  {
    Text.Join(seq(|answers|, i requires 0 <= i < |answers| => AnswerText(answers[i])), "; ")
  }

  /**
   * The answers Submit sends: the selected answers, in the order `order` in
   * which the state map iterates, that answer a question of the loaded
   * template. None are left exactly when no question of the template has a
   * selected answer.
   */
  function SubmittedAnswers(answers: Entries, order: seq<string>, t: Option<FeedbackTemplate>): (r: Entries)
    requires IsKeyOrder(order, answers)
    ensures Seqs.SubSeq(r, Arrange(answers, order)) && UniqueKeys(r)
    ensures forall q :: Get(r, q) == if q in QuestionTexts(t) then Get(answers, q) else None
    ensures r == [] <==> forall q :: q in QuestionTexts(t) ==> Get(answers, q).None?
  {
    ArrangeKeepsLookups(answers, order);
    var r := AnswersForTemplate(Arrange(answers, order), t);
    NonEmptyHasKey(r);
    r
  }

  /** A non-empty list maps its first key to something. */
  lemma NonEmptyHasKey(m: Entries)
    ensures m != [] ==> Get(m, m[0].0).Some?
  {
  }

  /**
   * The Submit button, pressed with the screen's `userToken` while the state
   * map iterates its keys in `order`. It makes the call exactly when nothing
   * is in flight, a category is chosen and some question of the loaded
   * template has an answer; every refusal says why.
   */
  function SubmitPressed(f: Form, token: string, order: seq<string>): (o: SubmitStep)
    requires IsKeyOrder(order, f.answers)
    ensures f.submitting ==> o == SubmitStep(f, None)
    ensures !f.submitting && Text.IsBlank(f.category) ==>
      o.call.None? && o.form == f.(message := Some(NeedsCategoryMessage))
    ensures !f.submitting && !Text.IsBlank(f.category) && |f.answers| == 0 ==>
      o.call.None? && o.form == f.(message := Some(NeedsAnswersMessage))
    ensures o.call.Some? <==>
      && !f.submitting && !Text.IsBlank(f.category)
      && exists q :: q in QuestionTexts(f.template) && Get(f.answers, q).Some?
    ensures o.call.Some? ==>
      && o.call.value == FeedbackSync.SubmitRequest(token, f.category, FeedbackText(SubmittedAnswers(f.answers, order, f.template)))
      && o.form == f.(submitting := true, message := None)
    ensures !f.submitting && o.call.None? ==> !o.form.submitting && o.form.message.Some?
    ensures o.form.category == f.category && o.form.answers == f.answers && o.form.template == f.template
  {
    if f.submitting then SubmitStep(f, None)
    else if Text.IsBlank(f.category) then SubmitStep(f.(message := Some(NeedsCategoryMessage)), None)
    else if |f.answers| == 0 then
      SubmitStep(f.(message := Some(NeedsAnswersMessage)), None)
    else
      var filtered := SubmittedAnswers(f.answers, order, f.template);
      if |filtered| == 0 then
        SubmitStep(f.(message := Some(NeedsCategoryAnswersMessage), submitting := false), None)
      else
        SubmitStep(f.(submitting := true, message := None),
                   Some(FeedbackSync.SubmitRequest(token, f.category, FeedbackText(filtered))))
  }

  /** The `feedbackResult` callback: any non-null response counts as success. */
  function FeedbackResultReceived(f: Form, response: Option<FeedbackResponse>): (f': Form)
    ensures !f'.submitting && f'.category == f.category && f'.answers == f.answers
    ensures f'.message == Some(SubmittedMessage) <==> response.Some?
    ensures f'.message == Some(SubmitFailedMessage) <==> response.None?
  {
    f.(submitting := false, message := Some(if response.Some? then SubmittedMessage else SubmitFailedMessage))
  }

  /**
   * The effect keyed on the message, as written: after any "✅" message it
   * empties the form, setting the category to "" before `clearDraft(category)`,
   * so the draft cleared is the one under the empty category.
   */
  function MessageEffect(f: Form, st: Store): (o: FormStep)
    ensures !IsSuccess(f.message) ==> o == FormStep(f, st)
    ensures IsSuccess(f.message) ==>
      && o.form == Form("", [], None, None, f.submitting)
      && SameOutside(st, o.store, {SharedPrefs.DraftKey("")})
      && (forall c :: c != "" ==> SharedPrefs.LoadDraft(o.store, c) == SharedPrefs.LoadDraft(st, c))
  {
    if IsSuccess(f.message) then
      var f' := Form("", [], None, None, f.submitting);
      forall c | c != "" ensures SharedPrefs.LoadDraft(SharedPrefs.ClearDraft(st, f'.category), c) == SharedPrefs.LoadDraft(st, c) {
        SharedPrefs.DraftWritesAreLocal(st, f'.category, c, []);
      }
      FormStep(f', SharedPrefs.ClearDraft(st, f'.category))
    else FormStep(f, st)
  }

  /**
   * The reset as evidently intended: the form is emptied as before, and a
   * successful submission also clears the draft of the category it was made
   * for. A "Draft Saved" reset keeps the draft it just wrote.
   */
  function MessageEffectFixed(f: Form, st: Store): (o: FormStep)
    ensures !IsSuccess(f.message) ==> o == FormStep(f, st)
    ensures IsSuccess(f.message) ==> o.form == Form("", [], None, None, f.submitting)
    ensures f.message == Some(SubmittedMessage) ==>
      && SharedPrefs.LoadDraft(o.store, f.category) == []
      && SameOutside(st, o.store, {SharedPrefs.DraftKey(f.category)})
    ensures f.message != Some(SubmittedMessage) ==> o.store == st
  {
    if IsSuccess(f.message) then
      var st' := if f.message == Some(SubmittedMessage) then SharedPrefs.ClearDraft(st, f.category) else st;
      FormStep(Form("", [], None, None, f.submitting), st')
    else FormStep(f, st)
  }

  /** The response callback with the failure status honoured: a "failed" response is shown as a failure. */
  function FeedbackResultReceivedFixed(f: Form, response: Option<FeedbackResponse>): (f': Form)
    ensures !f'.submitting && f'.category == f.category && f'.answers == f.answers
    ensures f'.message == Some(SubmittedMessage) <==> response.Some? && response.value.status != "failed"
  {
    var ok := response.Some? && response.value.status != "failed";
    f.(submitting := false, message := Some(if ok then SubmittedMessage else SubmitFailedMessage))
  }

  /**
   * As written, a submission the server refused is announced as a success:
   * the view-model reports a non-null "failed" response, the screen shows
   * "✅ Feedback submitted successfully!", and the reset then runs.
   */
  lemma FailedSubmitShownAsSuccess(f: Form, st: Store, nowMillis: nat, token: string)
    ensures var o := FeedbackSync.SubmitFeedback(st, true, nowMillis, token, f.category, "x", None);
      && o.reported.status == "failed"
      && FeedbackResultReceived(f, Some(o.reported)).message == Some(SubmittedMessage)
      && IsSuccess(FeedbackResultReceived(f, Some(o.reported)).message)
  {
    assert SubmittedMessage[0] == '✅';
  }

  /**
   * The screen with the view-model's `feedbackResult` slot: whether a result
   * callback has been installed in it yet. The view-model is fresh, with no
   * callback, when the screen is first opened.
   */
  datatype Round = Round(form: Form, store: Store, callbackInstalled: bool)

  /**
   * One Submit press carried through the view-model, as written: the screen
   * calls `submitFeedback` and only then installs its result callback. The
   * offline branch reports before that call returns, so its report reaches
   * the form only when an earlier press installed a callback; the server's
   * reply arrives later, once the callback is in place.
   */
  function SubmitRound(r: Round, token: string, order: seq<string>, online: bool, nowMillis: nat,
                       reply: Option<FeedbackResponse>): (r': Round)
    requires IsKeyOrder(order, r.form.answers)
    ensures SubmitPressed(r.form, token, order).call.None? ==>
      r' == Round(SubmitPressed(r.form, token, order).form, r.store, r.callbackInstalled)
    ensures SubmitPressed(r.form, token, order).call.Some? ==> r'.callbackInstalled
    ensures r'.form.category == r.form.category && r'.form.answers == r.form.answers
    ensures SubmitPressed(r.form, token, order).call.Some? && (online || r.callbackInstalled) ==>
      !r'.form.submitting && r'.form.message == Some(SubmittedMessage)
    ensures SubmitPressed(r.form, token, order).call.Some? && !online && !r.callbackInstalled ==>
      r'.form.submitting && r'.form.message.None?
    ensures online ==> r'.store == r.store
    ensures SubmitPressed(r.form, token, order).call.Some? && !online ==>
      SharedPrefs.GetOfflineFeedback(r'.store)
      == SharedPrefs.GetOfflineFeedback(r.store)
         + [FeedbackSync.OfflineRecord(nowMillis, r.form.category, SubmitPressed(r.form, token, order).call.value.feedback)]
  {
    var p := SubmitPressed(r.form, token, order);
    if p.call.None? then Round(p.form, r.store, r.callbackInstalled)
    else
      var o := FeedbackSync.SubmitFeedback(r.store, online, nowMillis, token, r.form.category, p.call.value.feedback, reply);
      var delivered := online || r.callbackInstalled;
      Round(if delivered then FeedbackResultReceived(p.form, Some(o.reported)) else p.form, o.store, true)
  }

  /**
   * As written, the first offline submission after the screen opens is never
   * reported: the feedback is queued, but the form stays submitting with no
   * message, and the Submit button, disabled while submitting, does nothing.
   */
  lemma FirstOfflineSubmitNeverReported(f: Form, st: Store, token: string, order: seq<string>, nowMillis: nat,
                                        question: string)
    requires IsKeyOrder(order, f.answers)
    requires !f.submitting && !Text.IsBlank(f.category)
    requires question in QuestionTexts(f.template) && Get(f.answers, question).Some?
    ensures var r' := SubmitRound(Round(f, st, false), token, order, false, nowMillis, None);
      && r'.form.submitting && r'.form.message.None?
      && |SharedPrefs.GetOfflineFeedback(r'.store)| == |SharedPrefs.GetOfflineFeedback(st)| + 1
      && SubmitPressed(r'.form, token, order) == SubmitStep(r'.form, None)
  {
  }

  /**
   * One Submit press with the callback installed before the call and the
   * failure status honoured: every submission is reported, and the form
   * leaves the submitting state.
   */
  function SubmitRoundFixed(r: Round, token: string, order: seq<string>, online: bool, nowMillis: nat,
                            reply: Option<FeedbackResponse>): (r': Round)
    requires IsKeyOrder(order, r.form.answers)
    ensures SubmitPressed(r.form, token, order).call.None? ==>
      r' == Round(SubmitPressed(r.form, token, order).form, r.store, r.callbackInstalled)
    ensures SubmitPressed(r.form, token, order).call.Some? ==>
      r'.callbackInstalled && !r'.form.submitting && r'.form.message.Some?
    ensures r'.form.category == r.form.category && r'.form.answers == r.form.answers
    ensures online ==> r'.store == r.store
    ensures SubmitPressed(r.form, token, order).call.Some? && !online ==>
      SharedPrefs.GetOfflineFeedback(r'.store)
      == SharedPrefs.GetOfflineFeedback(r.store)
         + [FeedbackSync.OfflineRecord(nowMillis, r.form.category, SubmitPressed(r.form, token, order).call.value.feedback)]
  {
    var p := SubmitPressed(r.form, token, order);
    if p.call.None? then Round(p.form, r.store, r.callbackInstalled)
    else
      var o := FeedbackSync.SubmitFeedback(r.store, online, nowMillis, token, r.form.category, p.call.value.feedback, reply);
      Round(FeedbackResultReceivedFixed(p.form, Some(o.reported)), o.store, true)
  }

  /**
   * With the callback installed first and the status honoured, the screen
   * announces success exactly when the feedback was saved offline or the
   * server returned a response that is not marked failed, whether or not a
   * callback was installed before.
   */
  lemma FixedResultMatchesOutcome(r: Round, token: string, order: seq<string>, online: bool, nowMillis: nat,
                                  reply: Option<FeedbackResponse>, question: string)
    requires IsKeyOrder(order, r.form.answers)
    requires !r.form.submitting && !Text.IsBlank(r.form.category)
    requires question in QuestionTexts(r.form.template) && Get(r.form.answers, question).Some?
    ensures var r' := SubmitRoundFixed(r, token, order, online, nowMillis, reply);
      r'.form.message == Some(SubmittedMessage) <==> !online || (reply.Some? && reply.value.status != "failed")
  {
  }

  /**
   * With both fixes, a submission is followed by the reset exactly when it
   * succeeded, and the reset then clears the submitted category's draft.
   */
  lemma FixedRoundResetsOnSuccess(r: Round, token: string, order: seq<string>, online: bool, nowMillis: nat,
                                  reply: Option<FeedbackResponse>, question: string)
    requires IsKeyOrder(order, r.form.answers)
    requires !r.form.submitting && !Text.IsBlank(r.form.category)
    requires question in QuestionTexts(r.form.template) && Get(r.form.answers, question).Some?
    ensures var r' := SubmitRoundFixed(r, token, order, online, nowMillis, reply);
      && (IsSuccess(r'.form.message) <==> !online || (reply.Some? && reply.value.status != "failed"))
      && (IsSuccess(r'.form.message) ==>
            SharedPrefs.LoadDraft(MessageEffectFixed(r'.form, r'.store).store, r.form.category) == []
            && MessageEffectFixed(r'.form, r'.store).form.category == "")
  {
    var p := SubmitPressed(r.form, token, order);
    var o := FeedbackSync.SubmitFeedback(r.store, online, nowMillis, token, r.form.category, p.call.value.feedback, reply);
    ReportThenReset(p.form, o.store, Some(o.reported));
    FixedResultMatchesOutcome(r, token, order, online, nowMillis, reply, question);
  }

  /** After a report shown by the fixed callback, the reset runs exactly on success and then clears the form's draft. */
  lemma ReportThenReset(f: Form, st: Store, response: Option<FeedbackResponse>)
    ensures var f' := FeedbackResultReceivedFixed(f, response);
      && (IsSuccess(f'.message) <==> f'.message == Some(SubmittedMessage))
      && (IsSuccess(f'.message) ==>
            SharedPrefs.LoadDraft(MessageEffectFixed(f', st).store, f.category) == []
            && MessageEffectFixed(f', st).form.category == "")
  {
    assert SubmittedMessage[0] == '✅';
    assert '✅' !in SubmitFailedMessage;
  }

  /**
   * As written, the draft of the category just submitted survives the reset:
   * whatever draft was saved for a non-empty category (a "Course" draft, say)
   * still loads after the "submitted successfully" reset.
   */
  lemma SubmittedDraftSurvivesReset(st: Store, f: Form)
    requires f.category != "" && DraftCodec.Encodable(f.answers) && f.message == Some(SubmittedMessage)
    ensures var saved := SharedPrefs.SaveDraft(st, f.category, f.answers);
      SharedPrefs.LoadDraft(MessageEffect(f, saved).store, f.category) == f.answers
  {
    SharedPrefs.DraftRoundTrip(st, f.category, f.answers);
    assert SubmittedMessage[0] == '✅';
  }

  /**
   * With the fix, a draft saved and then submitted is gone after the reset,
   * while a "Draft Saved" reset keeps the draft it reports.
   */
  lemma FixedResetClearsOnlySubmittedDraft(f: Form, st: Store, order: seq<string>)
    requires IsKeyOrder(order, f.answers)
    requires !Text.IsBlank(f.category) && DraftCodec.Encodable(f.answers)
    ensures var saved := SaveDraftPressed(f, st, order);
      && (forall q :: Get(SharedPrefs.LoadDraft(MessageEffectFixed(saved.form, saved.store).store, f.category), q)
                      == Get(f.answers, q))
      && MessageEffectFixed(saved.form, saved.store).form.category == ""
    ensures SharedPrefs.LoadDraft(MessageEffectFixed(f.(message := Some(SubmittedMessage)), st).store, f.category) == []
  {
    assert DraftSavedMessage[0] == '✅';
    assert DraftSavedMessage != SubmittedMessage by {
      assert |DraftSavedMessage| != |SubmittedMessage|;
    }
    assert SubmittedMessage[0] == '✅';
  }

  /** Joining with "; " is joining with ";" after prefixing every later piece with a space. */
  lemma JoinSemicolonSpace(parts: seq<string>)
    ensures Text.Join(parts, "; ")
         == Text.Join(seq(|parts|, i requires 0 <= i < |parts| => if i == 0 then parts[i] else " " + parts[i]), ";")
  {
    var spaced := seq(|parts|, i requires 0 <= i < |parts| => if i == 0 then parts[i] else " " + parts[i]);
    if |parts| > 0 {
      JoinSemicolonSpaceAfter(parts, "");
      var prefixed := seq(|parts|, i requires 0 <= i < |parts| => (if i == 0 then "" else " ") + parts[i]);
      forall i | 0 <= i < |parts| ensures spaced[i] == prefixed[i] {
        if i == 0 { assert "" + parts[0] == parts[0]; }
      }
      assert spaced == prefixed;
      assert "" + Text.Join(parts, "; ") == Text.Join(parts, "; ");
    }
  }

  /** The same with `pre` in front of the first piece: `pre` followed by the "; " join is the ";" join of the prefixed pieces. */
  lemma {:induction false} JoinSemicolonSpaceAfter(parts: seq<string>, pre: string)
    requires |parts| > 0
    ensures pre + Text.Join(parts, "; ")
         == Text.Join(seq(|parts|, i requires 0 <= i < |parts| => (if i == 0 then pre else " ") + parts[i]), ";")
    decreases |parts|
  {
    var prefixed := seq(|parts|, i requires 0 <= i < |parts| => (if i == 0 then pre else " ") + parts[i]);
    if |parts| >= 2 {
      var tail := parts[1..];
      var prefixedTail := seq(|tail|, i requires 0 <= i < |tail| => (if i == 0 then " " else " ") + tail[i]);
      JoinSemicolonSpaceAfter(tail, " ");
      assert prefixed[1..] == prefixedTail;
      assert Text.Join(parts, "; ") == parts[0] + "; " + Text.Join(tail, "; ");
      assert Text.Join(prefixed, ";") == prefixed[0] + ";" + Text.Join(prefixedTail, ";");
    }
  }

  /**
   * The submitted text parses back on ";": one segment per answer, in order,
   * each `question: answer` (after the first, behind the space of "; "),
   * provided no question or answer holds a ';'.
   */
  lemma FeedbackTextSegments(answers: Entries)
    requires |answers| > 0
    requires forall i :: 0 <= i < |answers| ==> ';' !in answers[i].0 && ';' !in answers[i].1
    ensures Text.Split(FeedbackText(answers), ';')
         == seq(|answers|, i requires 0 <= i < |answers| => (if i == 0 then "" else " ") + AnswerText(answers[i]))
  {
    var parts := seq(|answers|, i requires 0 <= i < |answers| => AnswerText(answers[i]));
    var spaced := seq(|parts|, i requires 0 <= i < |parts| => if i == 0 then parts[i] else " " + parts[i]);
    JoinSemicolonSpace(parts);
    forall i | 0 <= i < |spaced| ensures ';' !in spaced[i] {
      assert spaced[i] == (if i == 0 then "" else " ") + answers[i].0 + ": " + answers[i].1;
    }
    Text.SplitJoin(spaced, ';');
    assert "" + parts[0] == parts[0];
    assert spaced == seq(|answers|, i requires 0 <= i < |answers| => (if i == 0 then "" else " ") + AnswerText(answers[i]));
  }
}

=== FILE: feedback_moderation.dfy ===
/**
 * FeedbackManagementScreen: the list shown to the admin (status filter,
 * case-insensitive search, newest id first) and the snackbar text shown
 * after an approve, reject or delete.
 */
module FeedbackModeration {
  import opened Api
  import Text
  import Seqs
  import AdminFeedback

  const AllFilter: string := "All"
  const ApprovedToast: string := "Feedback Approved ✅"
  const RejectedToast: string := "Feedback Rejected ❌"
  const DeletedToast: string := "Feedback Deleted 🗑\U{FE0F}"

  /** `it.status == selectedFilter || selectedFilter == "All"`. */
  predicate StatusShown(item: AdminFeedbackItem, filter: string)
  {
    item.status == filter || filter == AllFilter
  }

  /** `it.feedback.contains(searchQuery, ignoreCase = true)`. */
  predicate SearchShown(item: AdminFeedbackItem, query: string)
  {
    Text.ContainsIgnoreCase(item.feedback, query)
  }

  /** No later item has a greater id: `sortedByDescending { it._id }` order. */
  predicate SortedByIdDesc(items: seq<AdminFeedbackItem>)
  {
    forall i, j :: 0 <= i < j < |items| ==> Text.StrLe(items[j].id, items[i].id)
  }

  /** `x` placed before the first item whose id is not greater than its own. */
  function Insert(x: AdminFeedbackItem, items: seq<AdminFeedbackItem>): (r: seq<AdminFeedbackItem>)
    requires SortedByIdDesc(items)
    ensures SortedByIdDesc(r)
    ensures multiset(r) == multiset(items) + multiset{x}
    decreases |items|
  {
    if |items| == 0 then [x]
    else if Text.StrLe(items[0].id, x.id) then
      forall j | 0 <= j < |items| ensures Text.StrLe(items[j].id, x.id) {
        if j > 0 { Text.StrLeTrans(items[j].id, items[0].id, x.id); }
      }
      [x] + items
    else
      Text.StrLeTotal(items[0].id, x.id);
      var rest := Insert(x, items[1..]);
      BoundSurvivesInsert(x, items[1..], rest, items[0].id);
      assert items == [items[0]] + items[1..];
      [items[0]] + rest
  }

  /** Every id of `tail` and `x` at most `b` bounds every id of a rearrangement of `tail` with `x` added. */
  lemma BoundSurvivesInsert(x: AdminFeedbackItem, tail: seq<AdminFeedbackItem>, rest: seq<AdminFeedbackItem>, b: string)
    requires multiset(rest) == multiset(tail) + multiset{x}
    requires Text.StrLe(x.id, b)
    requires forall j :: 0 <= j < |tail| ==> Text.StrLe(tail[j].id, b)
    ensures forall j :: 0 <= j < |rest| ==> Text.StrLe(rest[j].id, b)
  {
    forall j | 0 <= j < |rest| ensures Text.StrLe(rest[j].id, b) {
      assert rest[j] in multiset(rest);
      if rest[j] != x {
        assert rest[j] in multiset(tail);
        var k :| 0 <= k < |tail| && tail[k] == rest[j];
      }
    }
  }

  /** An insertion sort, newest id first; an item comes before later items with an equal id. */
  function SortByIdDesc(items: seq<AdminFeedbackItem>): (r: seq<AdminFeedbackItem>)
    ensures SortedByIdDesc(r)
    ensures multiset(r) == multiset(items)
    decreases |items|
  {
    if |items| == 0 then []
    else
      assert items == [items[0]] + items[1..];
      Insert(items[0], SortByIdDesc(items[1..]))
  }

  /** The items the screen lists for `filter` and `query`. */
  function Displayed(items: seq<AdminFeedbackItem>, filter: string, query: string): (r: seq<AdminFeedbackItem>)
    ensures multiset(r) <= multiset(items)
    ensures forall x :: multiset(r)[x] == if StatusShown(x, filter) && SearchShown(x, query) then multiset(items)[x] else 0
    ensures SortedByIdDesc(r)
    ensures forall x :: x in r <==> x in items && StatusShown(x, filter) && SearchShown(x, query)
  {
    var byStatus := Seqs.Filter(items, (it: AdminFeedbackItem) => StatusShown(it, filter));
    var bySearch := Seqs.Filter(byStatus, (it: AdminFeedbackItem) => SearchShown(it, query));
    var r := SortByIdDesc(bySearch);
    forall x ensures x in r <==> x in items && StatusShown(x, filter) && SearchShown(x, query) {
      Seqs.FilterMember(items, (it: AdminFeedbackItem) => StatusShown(it, filter), x);
      Seqs.FilterMember(byStatus, (it: AdminFeedbackItem) => SearchShown(it, query), x);
      assert x in r <==> x in multiset(r);
      assert x in bySearch <==> x in multiset(bySearch);
    }
    r
  }

  /** The empty query is found in every text. */
  lemma EmptyQueryMatches(s: string)
    ensures Text.ContainsIgnoreCase(s, "")
  {
  }

  /** With "All" and an empty search, the screen lists every fetched item, newest first. */
  lemma AllAndEmptyIsPermutation(items: seq<AdminFeedbackItem>)
    ensures multiset(Displayed(items, AllFilter, "")) == multiset(items)
  {
    var byStatus := Seqs.Filter(items, (it: AdminFeedbackItem) => StatusShown(it, AllFilter));
    Seqs.FilterAll(items, (it: AdminFeedbackItem) => StatusShown(it, AllFilter));
    forall i | 0 <= i < |byStatus| ensures SearchShown(byStatus[i], "") {
      EmptyQueryMatches(byStatus[i].feedback);
    }
    Seqs.FilterAll(byStatus, (it: AdminFeedbackItem) => SearchShown(it, ""));
  }

  /** The snackbar text for an action message, keywords checked in this order. */
  function ToastMessage(message: string): (t: string)
    ensures Text.ContainsIgnoreCase(message, "approved") ==> t == ApprovedToast
    ensures !Text.ContainsIgnoreCase(message, "approved") && Text.ContainsIgnoreCase(message, "rejected") ==> t == RejectedToast
    ensures (!Text.ContainsIgnoreCase(message, "approved") && !Text.ContainsIgnoreCase(message, "rejected")
             && Text.ContainsIgnoreCase(message, "deleted")) ==> t == DeletedToast
    ensures (!Text.ContainsIgnoreCase(message, "approved") && !Text.ContainsIgnoreCase(message, "rejected")
             && !Text.ContainsIgnoreCase(message, "deleted")) ==> t == message
  {
    if Text.ContainsIgnoreCase(message, "approved") then ApprovedToast
    else if Text.ContainsIgnoreCase(message, "rejected") then RejectedToast
    else if Text.ContainsIgnoreCase(message, "deleted") then DeletedToast
    else message
  }

  /** A match of a lowercase ASCII letter of the query needs that letter, in either case, in the text. */
  lemma {:induction false} MatchNeedsLetter(s: string, q: string, k: nat)
    requires k < |q| && 'a' <= q[k] <= 'z'
    ensures Text.ContainsIgnoreCase(s, q) ==> q[k] in s || (q[k] as int - 32) as char in s
    decreases |s|
  {
    if Text.StartsWithIgnoreCase(s, q) {
      assert Text.LowerChar(s[k]) == Text.LowerChar(q[k]);
    }
    if |s| > 0 {
      MatchNeedsLetter(s[1..], q, k);
      if Text.ContainsIgnoreCase(s[1..], q) && q[k] in s[1..] {
        var j :| 0 <= j < |s[1..]| && s[1..][j] == q[k];
        assert s[j + 1] == q[k];
      }
      if Text.ContainsIgnoreCase(s[1..], q) && (q[k] as int - 32) as char in s[1..] {
        var j :| 0 <= j < |s[1..]| && s[1..][j] == (q[k] as int - 32) as char;
        assert s[j + 1] == (q[k] as int - 32) as char;
      }
    }
  }

  /** A text lacking, in both cases, some lowercase letter of the query does not contain it. */
  lemma MissingLetter(s: string, q: string, k: nat)
    requires k < |q| && 'a' <= q[k] <= 'z'
    requires q[k] !in s && (q[k] as int - 32) as char !in s
    ensures !Text.ContainsIgnoreCase(s, q)
  {
    MatchNeedsLetter(s, q, k);
  }

  /** A text holding the keyword verbatim contains it. */
  lemma KeywordBetween(prefix: string, keyword: string, suffix: string)
    ensures Text.ContainsIgnoreCase(prefix + keyword + suffix, keyword)
  {
    var s := prefix + keyword + suffix;
    assert s[|prefix|..][..|keyword|] == keyword;
    assert Text.StartsWithIgnoreCase(s[|prefix|..], keyword);
    Text.ContainsIgnoreCaseWitness(s, keyword, |prefix|);
  }

  /** A text without the letter v cannot mention "approved". */
  lemma LacksApproved(s: string)
    requires 'v' !in s && 'V' !in s
    ensures !Text.ContainsIgnoreCase(s, "approved")
  {
    MissingLetter(s, "approved", 5);
  }

  /** A text without the letter j cannot mention "rejected". */
  lemma LacksRejected(s: string)
    requires 'j' !in s && 'J' !in s
    ensures !Text.ContainsIgnoreCase(s, "rejected")
  {
    MissingLetter(s, "rejected", 2);
  }

  /** A text with neither v nor j mentions neither "approved" nor "rejected". */
  lemma LacksEarlierKeywords(m: string)
    requires 'v' !in m && 'V' !in m && 'j' !in m && 'J' !in m
    ensures !Text.ContainsIgnoreCase(m, "approved") && !Text.ContainsIgnoreCase(m, "rejected")
  {
    LacksApproved(m);
    LacksRejected(m);
  }

  /** The delete message holds none of the letters that only "approved" and "rejected" need. */
  lemma DeletedMessageLetters(m: string)
    requires m == AdminFeedback.DeletedMessage
    ensures 'v' !in m && 'V' !in m && 'j' !in m && 'J' !in m
  {
  }

  /** The delete message mentions "deleted". */
  lemma MentionsDeleted(m: string)
    requires m == AdminFeedback.DeletedMessage
    ensures Text.ContainsIgnoreCase(m, "deleted")
  {
    assert m == "Feedback " + "deleted" + " successfully 🗑\U{FE0F}";
    KeywordBetween("Feedback ", "deleted", " successfully 🗑\U{FE0F}");
  }

  /** Approving a feedback shows "Feedback Approved ✅". */
  lemma ApproveShowsApproved()
    ensures ToastMessage(AdminFeedback.UpdateFeedbackStatus("Approved", true).message) == ApprovedToast
  {
    assert Text.Lower("Approved") == "approved";
    KeywordBetween("Feedback ", "approved", " successfully ✅");
  }

  /** Rejecting a feedback shows "Feedback Rejected ❌". */
  lemma RejectShowsRejected()
    ensures ToastMessage(AdminFeedback.UpdateFeedbackStatus("Rejected", true).message) == RejectedToast
  {
    assert Text.Lower("Rejected") == "rejected";
    KeywordBetween("Feedback ", "rejected", " successfully ✅");
    LacksApproved(AdminFeedback.UpdatedMessage("rejected"));
  }

  /** Deleting a feedback shows "Feedback Deleted 🗑️". */
  lemma DeleteShowsDeleted()
    ensures ToastMessage(AdminFeedback.DeleteFeedback(true).message) == DeletedToast
  {
    var m := AdminFeedback.DeleteFeedback(true).message;
    DeletedMessageLetters(m);
    LacksEarlierKeywords(m);
    MentionsDeleted(m);
  }
}

=== FILE: feedback_sync.dfy ===
/**
 * FeedbackViewModel: submitting feedback online or into the offline queue,
 * and replaying the queue to the server. Connectivity, the clock (which
 * also supplies the local `_id`) and the server's replies are parameters.
 */
module FeedbackSync {
  import opened Wrappers
  import opened KeyValue
  import Text
  import Jwt
  import SharedPrefs
  import opened Api

  /** The `POST feedback` call made by an online submit. */
  datatype SubmitRequest = SubmitRequest(token: string, category: string, feedback: string)

  /** What a submit does: the store after it, the call it makes, and the response handed to the screen. */
  datatype SubmitOutcome = SubmitOutcome(store: Store, sent: Option<SubmitRequest>, reported: FeedbackResponse)

  /** The `POST sync` call: the bearer token and the queued records with every value as a string. */
  datatype SyncRequest = SyncRequest(token: string, records: seq<Record>)

  /** What a sync does: the store after it and the call it makes, if any. */
  datatype SyncOutcome = SyncOutcome(store: Store, sent: Option<SyncRequest>)

  /** The record queued by an offline submit; its `_id` is the clock in milliseconds. */
  function OfflineRecord(nowMillis: nat, category: string, feedback: string): (r: Record)
    ensures r.Keys == {"_id", "category", "feedback", "status"}
    ensures r["category"] == category && r["feedback"] == feedback && r["status"] == "unsynced"
    ensures Text.ParseNat(r["_id"]) == nowMillis
  {
    Text.ParseNatToString(nowMillis);
    map["_id" := Text.NatToString(nowMillis), "category" := category,
        "feedback" := feedback, "status" := "unsynced"]
  }

  /**
   * `submitFeedback(token, category, feedback)`. Online, it calls the server
   * and leaves the queue alone; a missing reply is still reported, as a
   * non-null response with status "failed". Offline, it appends one record
   * to the queue and reports "Saved Offline".
   */
  function SubmitFeedback(st: Store, online: bool, nowMillis: nat, token: string, category: string,
                          feedback: string, reply: Option<FeedbackResponse>): (o: SubmitOutcome)
    ensures online ==> o.store == st && o.sent == Some(SubmitRequest(token, category, feedback))
    ensures online && reply.Some? ==> o.reported == reply.value
    ensures online && reply.None? ==>
      o.reported.status == "failed" && o.reported.category == category && o.reported.feedback == feedback
    ensures !online ==> o.sent.None?
    ensures !online ==> o.reported == FeedbackResponse("", category, "Saved Offline", "success")
    ensures !online ==>
      var q := SharedPrefs.GetOfflineFeedback(st);
      var q' := SharedPrefs.GetOfflineFeedback(o.store);
      q' == q + [OfflineRecord(nowMillis, category, feedback)]
    ensures !online ==> SameOutside(st, o.store, {SharedPrefs.KeyOfflineFeedback})
  {
    if online then
      var response := reply.GetOr(FeedbackResponse("", category, feedback, "failed"));
      SubmitOutcome(st, Some(SubmitRequest(token, category, feedback)), response)
    else
      var queue := SharedPrefs.GetOfflineFeedback(st) + [OfflineRecord(nowMillis, category, feedback)];
      var st' := SharedPrefs.SaveOfflineFeedback(st, queue);
      SubmitOutcome(st', None, FeedbackResponse("", category, "Saved Offline", "success"))
  }

  /**
   * `syncOfflineFeedback()`. With no valid token, or with an empty queue, it
   * makes no call. Otherwise it sends the whole queue and, if the server
   * `accepted` it, removes the whole queue; on failure the queue stays.
   */
  function SyncOfflineFeedback(st: Store, nowMillis: nat, payloadExp: Jwt.ExpDecoder, accepted: bool): (o: SyncOutcome)
    ensures SharedPrefs.GetUserToken(st, nowMillis, payloadExp).value.None? ==>
      o == SyncOutcome(SharedPrefs.GetUserToken(st, nowMillis, payloadExp).store, None)
    ensures o.sent.Some? ==>
      && o.sent.value.token == GetString(st, SharedPrefs.KeyUserToken).value
      && o.sent.value.records == SharedPrefs.GetOfflineFeedback(st)
      && |SharedPrefs.GetOfflineFeedback(st)| > 0
    ensures SharedPrefs.GetUserToken(st, nowMillis, payloadExp).value.Some? ==>
      && (o.sent.None? <==> SharedPrefs.GetOfflineFeedback(st) == [])
      && (o.sent.None? || !accepted ==> o.store == st)
      && (o.sent.Some? && accepted ==> o.store == SharedPrefs.ClearOfflineFeedback(st))
  {
    var token := SharedPrefs.GetUserToken(st, nowMillis, payloadExp);
    if token.value.None? then SyncOutcome(token.store, None)
    else
      var queue := SharedPrefs.GetOfflineFeedback(token.store);
      if |queue| == 0 then SyncOutcome(token.store, None)
      else
        // `mapValues { it.value.toString() }` is the identity on records whose values are strings.
        var payload := queue;
        var st' := if accepted then SharedPrefs.ClearOfflineFeedback(token.store) else token.store;
        SyncOutcome(st', Some(SyncRequest(token.value.value, payload)))
  }

  /**
   * A successful sync empties the queue and keeps the session and drafts; a
   * failed one leaves the store exactly as it was.
   */
  lemma SyncSuccessClearsOnlyTheQueue(st: Store, nowMillis: nat, payloadExp: Jwt.ExpDecoder, category: string)
    requires SharedPrefs.GetUserToken(st, nowMillis, payloadExp).value.Some?
    requires SharedPrefs.GetOfflineFeedback(st) != []
    ensures var o := SyncOfflineFeedback(st, nowMillis, payloadExp, true);
      && o.sent.Some?
      && SharedPrefs.GetOfflineFeedback(o.store) == []
      && SharedPrefs.GetUserToken(o.store, nowMillis, payloadExp).value == SharedPrefs.GetUserToken(st, nowMillis, payloadExp).value
      && SharedPrefs.LoadDraft(o.store, category) == SharedPrefs.LoadDraft(st, category)
    ensures SyncOfflineFeedback(st, nowMillis, payloadExp, false).store == st
  {
    SharedPrefs.ClearQueueKeepsSessionAndDrafts(st, category, nowMillis, payloadExp);
  }

  /**
   * A sync attempted with a stored but expired token makes no call, yet the
   * token read inside it has already wiped the queue it meant to send.
   */
  lemma ExpiredSyncLosesQueue(st: Store, nowMillis: nat, payloadExp: Jwt.ExpDecoder, accepted: bool)
    requires GetString(st, SharedPrefs.KeyUserToken).Some?
    requires Jwt.IsTokenExpired(GetString(st, SharedPrefs.KeyUserToken).value, nowMillis, payloadExp)
    ensures var o := SyncOfflineFeedback(st, nowMillis, payloadExp, accepted);
      o.sent.None? && SharedPrefs.GetOfflineFeedback(o.store) == []
  {
  }

  /** The queue after a run of offline submits, one record per submit in submit order. */
  function SubmitAllOffline(st: Store, clock: seq<nat>, token: string, category: string, texts: seq<string>): Store
    requires |clock| == |texts|
    decreases |texts|
  {
    if |texts| == 0 then st
    else
      var st' := SubmitFeedback(st, false, clock[0], token, category, texts[0], None).store;
      SubmitAllOffline(st', clock[1..], token, category, texts[1..])
  }

  /**
   * Offline submits only ever append: after a run of them the queue is the
   * old queue followed by one record per text, in submit order, each stamped
   * with its own clock reading.
   */
  lemma {:induction false} OfflineQueueIsAppendOnly(st: Store, clock: seq<nat>, token: string,
                                                    category: string, texts: seq<string>)
    requires |clock| == |texts|
    ensures var q := SharedPrefs.GetOfflineFeedback(st);
      var q' := SharedPrefs.GetOfflineFeedback(SubmitAllOffline(st, clock, token, category, texts));
      && |q'| == |q| + |texts|
      && q'[..|q|] == q
      && (forall i :: 0 <= i < |texts| ==> q'[|q| + i] == OfflineRecord(clock[i], category, texts[i]))
    decreases |texts|
  {
    if |texts| > 0 {
      var st' := SubmitFeedback(st, false, clock[0], token, category, texts[0], None).store;
      var q := SharedPrefs.GetOfflineFeedback(st);
      var q1 := SharedPrefs.GetOfflineFeedback(st');
      assert q1 == q + [OfflineRecord(clock[0], category, texts[0])];
      OfflineQueueIsAppendOnly(st', clock[1..], token, category, texts[1..]);
      var q' := SharedPrefs.GetOfflineFeedback(SubmitAllOffline(st, clock, token, category, texts));
      assert q'[..|q1|] == q1;
      assert q'[..|q|] == q1[..|q|];
      forall i | 0 <= i < |texts|
        ensures q'[|q| + i] == OfflineRecord(clock[i], category, texts[i])
      {
        if i == 0 {
          assert q'[|q|] == q1[|q|];
        } else {
          assert clock[i] == clock[1..][i - 1] && texts[i] == texts[1..][i - 1];
          assert q'[|q1| + (i - 1)] == OfflineRecord(clock[1..][i - 1], category, texts[1..][i - 1]);
          assert q'[|q| + i] == q'[|q1| + (i - 1)];
        }
      }
    }
  }
}

=== FILE: jwt.dfy ===
/**
 * Fail-closed expiry of a `header.payload.signature` token, shared verbatim
 * by SharedPrefsHelper and SessionManager. Base64url decoding, JSON parsing
 * and `getLong("exp")` of the middle segment are one parameter, `payloadExp`,
 * that yields null wherever any of those steps would throw.
 */
module Jwt {
  import opened Wrappers
  import Text

  type ExpDecoder = string -> Option<int>

  /** `isTokenExpired(token)` at wall-clock time `nowMillis` (milliseconds). */
  predicate IsTokenExpired(token: string, nowMillis: nat, payloadExp: ExpDecoder)
  {
    var parts := Text.Split(token, '.');
    if |parts| != 3 then true
    else match payloadExp(parts[1])
      case None => true
      case Some(exp) => exp < nowMillis / 1000
  }

  /** Any token without exactly two dots is expired, whatever the clock says. */
  lemma MalformedIsExpired(token: string, nowMillis: nat, payloadExp: ExpDecoder)
    requires Text.Count(token, '.') != 2
    ensures IsTokenExpired(token, nowMillis, payloadExp)
  {
    Text.SplitCount(token, '.');
  }

  /**
   * For a token assembled from three dot-free segments, expiry depends only on
   * the middle one: undecodable or without `exp` means expired, otherwise the
   * token lives through the second `exp` itself.
   */
  lemma ThreeSegmentExpiry(header: string, payload: string, signature: string,
                           nowMillis: nat, payloadExp: ExpDecoder)
    requires '.' !in header && '.' !in payload && '.' !in signature
    ensures IsTokenExpired(header + "." + payload + "." + signature, nowMillis, payloadExp)
        <==> (payloadExp(payload).None? || payloadExp(payload).value < nowMillis / 1000)
    ensures payloadExp(payload) == Some(nowMillis / 1000)
        ==> !IsTokenExpired(header + "." + payload + "." + signature, nowMillis, payloadExp)
  {
    var parts := [header, payload, signature];
    Text.SplitJoin(parts, '.');
    assert parts[1..] == [payload, signature] && parts[1..][1..] == [signature];
    assert Text.Join(parts[1..], ".") == payload + "." + signature;
    assert Text.Join(parts, ".") == header + "." + payload + "." + signature;
  }

  /** Once expired, a token stays expired as the clock moves forward. */
  lemma ExpiryIsMonotone(token: string, t1: nat, t2: nat, payloadExp: ExpDecoder)
    requires t1 <= t2 && IsTokenExpired(token, t1, payloadExp)
    ensures IsTokenExpired(token, t2, payloadExp)
  {
  }
}

=== FILE: keyvalue.dfy ===
/**
 * The app's private preferences file: a string-keyed store of typed values.
 * The offline queue is kept as its list of records; its JSON text form is
 * not modelled.
 */
module KeyValue {
  import opened Wrappers

  /** One queued feedback record, all fields as strings. */
  type Record = map<string, string>

  datatype Value = Str(s: string) | Flag(b: bool) | Records(items: seq<Record>)

  type Store = map<string, Value>

  /** `getString(key, null)`. */
  function GetString(st: Store, key: string): Option<string>
  {
    if key in st && st[key].Str? then Some(st[key].s) else None
  }

  /** `getBoolean(key, default)`. */
  function GetBoolean(st: Store, key: string, default: bool): bool
  {
    if key in st && st[key].Flag? then st[key].b else default
  }

  /** The stored record list under `key`, or null. */
  function GetRecords(st: Store, key: string): Option<seq<Record>>
  {
    if key in st && st[key].Records? then Some(st[key].items) else None
  }

  /** Every key outside `keys` is present in both stores with the same value, or in neither. */
  predicate SameOutside(st: Store, st': Store, keys: set<string>)
  {
    st - keys == st' - keys
  }
}

=== FILE: password.dfy ===
/**
 * The password strength label (`getPasswordStrength`, colour left aside).
 * Each of the three patterns has the shape `^(?=.*C1)...(?=.*Ck).{min,max}$`
 * and is matched against the whole password by `Regex.matches`. On Android,
 * java.util.regex is backed by ICU: `\d` is any Unicode decimal digit
 * (general category Nd) and `.` refuses every ICU line terminator.
 */
module Password {

  /**
   * Code point `x` has general category Nd (decimal digit) in Unicode 15.0,
   * the version of the ICU 72 that Android 14 ships.
   */
  predicate IsDecimalDigit(x: int)
  {
    (0x30 <= x <= 0x39) || (0x660 <= x <= 0x669) || (0x6F0 <= x <= 0x6F9) || (0x7C0 <= x <= 0x7C9) ||
    (0x966 <= x <= 0x96F) || (0x9E6 <= x <= 0x9EF) || (0xA66 <= x <= 0xA6F) || (0xAE6 <= x <= 0xAEF) ||
    (0xB66 <= x <= 0xB6F) || (0xBE6 <= x <= 0xBEF) || (0xC66 <= x <= 0xC6F) || (0xCE6 <= x <= 0xCEF) ||
    (0xD66 <= x <= 0xD6F) || (0xDE6 <= x <= 0xDEF) || (0xE50 <= x <= 0xE59) || (0xED0 <= x <= 0xED9) ||
    (0xF20 <= x <= 0xF29) || (0x1040 <= x <= 0x1049) || (0x1090 <= x <= 0x1099) ||
    (0x17E0 <= x <= 0x17E9) || (0x1810 <= x <= 0x1819) || (0x1946 <= x <= 0x194F) ||
    (0x19D0 <= x <= 0x19D9) || (0x1A80 <= x <= 0x1A89) || (0x1A90 <= x <= 0x1A99) ||
    (0x1B50 <= x <= 0x1B59) || (0x1BB0 <= x <= 0x1BB9) || (0x1C40 <= x <= 0x1C49) ||
    (0x1C50 <= x <= 0x1C59) || (0xA620 <= x <= 0xA629) || (0xA8D0 <= x <= 0xA8D9) ||
    (0xA900 <= x <= 0xA909) || (0xA9D0 <= x <= 0xA9D9) || (0xA9F0 <= x <= 0xA9F9) ||
    (0xAA50 <= x <= 0xAA59) || (0xABF0 <= x <= 0xABF9) || (0xFF10 <= x <= 0xFF19) ||
    (0x104A0 <= x <= 0x104A9) || (0x10D30 <= x <= 0x10D39) || (0x11066 <= x <= 0x1106F) ||
    (0x110F0 <= x <= 0x110F9) || (0x11136 <= x <= 0x1113F) || (0x111D0 <= x <= 0x111D9) ||
    (0x112F0 <= x <= 0x112F9) || (0x11450 <= x <= 0x11459) || (0x114D0 <= x <= 0x114D9) ||
    (0x11650 <= x <= 0x11659) || (0x116C0 <= x <= 0x116C9) || (0x11730 <= x <= 0x11739) ||
    (0x118E0 <= x <= 0x118E9) || (0x11950 <= x <= 0x11959) || (0x11C50 <= x <= 0x11C59) ||
    (0x11D50 <= x <= 0x11D59) || (0x11DA0 <= x <= 0x11DA9) || (0x11F50 <= x <= 0x11F59) ||
    (0x16A60 <= x <= 0x16A69) || (0x16AC0 <= x <= 0x16AC9) || (0x16B50 <= x <= 0x16B59) ||
    (0x1D7CE <= x <= 0x1D7FF) || (0x1E140 <= x <= 0x1E149) || (0x1E2F0 <= x <= 0x1E2F9) ||
    (0x1E4F0 <= x <= 0x1E4F9) || (0x1E950 <= x <= 0x1E959) || (0x1FBF0 <= x <= 0x1FBF9)
  }

  /** The character classes the patterns use: ASCII letter ranges, ICU's `\d`, and the listed specials. */
  datatype CharClass = Letter | Lower | Upper | Digit | Special

  predicate InClass(c: char, cc: CharClass)
  {
    match cc
    case Letter => ('a' <= c <= 'z') || ('A' <= c <= 'Z')
    case Lower => 'a' <= c <= 'z'
    case Upper => 'A' <= c <= 'Z'
    case Digit => IsDecimalDigit(c as int)
    case Special => c in "!@#$%^&*()_+{}:;<>?"
  }

  /** The characters ICU's `.` does not match without the DOTALL flag. */
  predicate IsLineTerminator(c: char)
  {
    c == '\n' || c == '\U{000B}' || c == '\U{000C}' || c == '\r' || c == '\U{0085}' || c == '\U{2028}' || c == '\U{2029}'
  }

  /** `.` matches each of the first `j` characters. */
  predicate DotsUpTo(s: string, j: nat)
    requires j <= |s|
  {
    forall i :: 0 <= i < j ==> !IsLineTerminator(s[i])
  }

  /** `(?=.*C)` at the start of the input: some `C` character is reachable through `.`s. */
  predicate LookaheadHolds(s: string, cc: CharClass)
  {
    exists j :: 0 <= j < |s| && InClass(s[j], cc) && DotsUpTo(s, j)
  }

  datatype Pattern = Pattern(lookaheads: seq<CharClass>, min: nat, max: nat)

  /** Each lookahead of `ls`, tried in turn at the start of the input, holds. */
  predicate AllLookaheads(s: string, ls: seq<CharClass>)
    decreases |ls|
  {
    |ls| == 0 || (LookaheadHolds(s, ls[0]) && AllLookaheads(s, ls[1..]))
  }

  /** `Regex.matches(s)`: every lookahead holds and `.{min,max}` consumes the whole input. */
  predicate Matches(p: Pattern, s: string)
  {
    && AllLookaheads(s, p.lookaheads)
    && p.min <= |s| <= p.max
    && DotsUpTo(s, |s|)
  }

  const WeakPattern: Pattern := Pattern([Letter], 1, 4)
  const MediumPattern: Pattern := Pattern([Lower, Upper, Digit], 5, 9)
  const StrongPattern: Pattern := Pattern([Lower, Upper, Digit, Special], 10, 10)

  const StrongLabel: string := "Strong 💪"
  const MediumLabel: string := "Medium ⚠"
  const WeakLabel: string := "Weak ❌"

  /** `getPasswordStrength(password).label`: the first pattern of strong, medium, weak that matches. */
  function PasswordStrength(password: string): string
  {
    if Matches(StrongPattern, password) then StrongLabel
    else if Matches(MediumPattern, password) then MediumLabel
    else if Matches(WeakPattern, password) then WeakLabel
    else ""
  }

  /** The same `when` with its branches in the opposite order. */
  function PasswordStrengthWeakFirst(password: string): string
  {
    if Matches(WeakPattern, password) then WeakLabel
    else if Matches(MediumPattern, password) then MediumLabel
    else if Matches(StrongPattern, password) then StrongLabel
    else ""
  }

  /** The password holds some character of class `cc`. */
  predicate Has(s: string, cc: CharClass)
  {
    exists i :: 0 <= i < |s| && InClass(s[i], cc)
  }

  /** No character of the password is a line terminator. */
  predicate SingleLine(s: string)
  {
    forall i :: 0 <= i < |s| ==> !IsLineTerminator(s[i])
  }

  /** On a single-line input each lookahead just asks for one character of its class. */
  lemma LookaheadIsContainment(s: string, cc: CharClass)
    requires SingleLine(s)
    ensures LookaheadHolds(s, cc) <==> Has(s, cc)
  {
    if Has(s, cc) {
      var i :| 0 <= i < |s| && InClass(s[i], cc);
      assert DotsUpTo(s, i);
    }
  }

  /** The password holds a character of every class in `ls`. */
  predicate HasAll(s: string, ls: seq<CharClass>)
    decreases |ls|
  {
    |ls| == 0 || (Has(s, ls[0]) && HasAll(s, ls[1..]))
  }

  lemma {:induction false} AllLookaheadsAreContainments(s: string, ls: seq<CharClass>)
    requires SingleLine(s)
    ensures AllLookaheads(s, ls) <==> HasAll(s, ls)
    decreases |ls|
  {
    if |ls| > 0 {
      LookaheadIsContainment(s, ls[0]);
      AllLookaheadsAreContainments(s, ls[1..]);
    }
  }

  /** A pattern matches exactly the single-line inputs of its length range holding each of its classes. */
  lemma MatchesPlainly(p: Pattern, s: string)
    ensures Matches(p, s) <==> p.min <= |s| <= p.max && SingleLine(s) && HasAll(s, p.lookaheads)
  {
    if SingleLine(s) {
      AllLookaheadsAreContainments(s, p.lookaheads);
    }
  }

  /** "Strong" exactly for ten single-line characters with a lower, an upper, a decimal digit of any script and a special character. */
  lemma StrongIff(password: string)
    ensures PasswordStrength(password) == StrongLabel <==>
      && |password| == 10 && SingleLine(password)
      && Has(password, Lower) && Has(password, Upper) && Has(password, Digit) && Has(password, Special)
  {
    MatchesPlainly(StrongPattern, password);
    assert StrongLabel[0] == 'S' && MediumLabel[0] == 'M' && WeakLabel[0] == 'W';
  }

  /** "Medium" exactly for five to nine single-line characters with a lower, an upper and a decimal digit of any script. */
  lemma MediumIff(password: string)
    ensures PasswordStrength(password) == MediumLabel <==>
      && 5 <= |password| <= 9 && SingleLine(password)
      && Has(password, Lower) && Has(password, Upper) && Has(password, Digit)
  {
    MatchesPlainly(StrongPattern, password);
    MatchesPlainly(MediumPattern, password);
    assert StrongLabel[0] == 'S' && MediumLabel[0] == 'M' && WeakLabel[0] == 'W';
  }

  /** "Weak" exactly for one to four single-line characters with an ASCII letter. */
  lemma WeakIff(password: string)
    ensures PasswordStrength(password) == WeakLabel <==>
      1 <= |password| <= 4 && SingleLine(password) && Has(password, Letter)
  {
    MatchesPlainly(StrongPattern, password);
    MatchesPlainly(MediumPattern, password);
    MatchesPlainly(WeakPattern, password);
    assert StrongLabel[0] == 'S' && MediumLabel[0] == 'M' && WeakLabel[0] == 'W';
  }

  /** Everything else, the empty password, anything over ten characters and any line break included, gets no label. */
  lemma NoLabelOtherwise(password: string)
    ensures |password| == 0 || |password| > 10 || !SingleLine(password) ==> PasswordStrength(password) == ""
  {
    MatchesPlainly(StrongPattern, password);
    MatchesPlainly(MediumPattern, password);
    MatchesPlainly(WeakPattern, password);
  }

  /** The three length ranges are disjoint, so the order of the `when` branches is immaterial. */
  lemma BranchOrderIrrelevant(password: string)
    ensures PasswordStrength(password) == PasswordStrengthWeakFirst(password)
  {
    MatchesPlainly(StrongPattern, password);
    MatchesPlainly(MediumPattern, password);
    MatchesPlainly(WeakPattern, password);
  }

  /** An Arabic-Indic digit is a `\d`: "Abcd" followed by U+0661 is rated Medium. */
  lemma ArabicIndicDigitCounts()
    ensures PasswordStrength("Abcd\U{0661}") == MediumLabel
  {
    var s := "Abcd\U{0661}";
    assert InClass(s[4], Digit);
    assert InClass(s[1], Lower) && InClass(s[0], Upper);
    assert SingleLine(s);
    MediumIff(s);
  }

  /** A vertical tab ends the line for `.`: "Abc1" followed by U+000B gets no label. */
  lemma VerticalTabEndsLine()
    ensures PasswordStrength("Abc1\U{000B}") == ""
  {
    var s := "Abc1\U{000B}";
    assert IsLineTerminator(s[4]);
    NoLabelOtherwise(s);
  }
}

=== FILE: seqs.dfy ===
/** Order-preserving selection over sequences (Kotlin's `filter`). */
module Seqs {

  /** `s.filter(p)`. */
  function Filter<T(==,!new)>(s: seq<T>, p: T -> bool): (r: seq<T>)
    ensures |r| <= |s|
    ensures forall i :: 0 <= i < |r| ==> p(r[i])
    ensures forall i :: 0 <= i < |s| && p(s[i]) ==> s[i] in r
    ensures multiset(r) <= multiset(s)
    ensures forall x :: multiset(r)[x] == if p(x) then multiset(s)[x] else 0
    decreases |s|
  {
    if |s| == 0 then []
    else
      var rest := Filter(s[1..], p);
      var r := if p(s[0]) then [s[0]] + rest else rest;
      FilterStepCounts(s, p, rest, r);
      r
  }

  /** One step of the filter keeps the count of every element that passes and drops every one that does not. */
  lemma FilterStepCounts<T(!new)>(s: seq<T>, p: T -> bool, rest: seq<T>, r: seq<T>)
    requires |s| > 0
    requires forall x :: multiset(rest)[x] == if p(x) then multiset(s[1..])[x] else 0
    requires r == if p(s[0]) then [s[0]] + rest else rest
    ensures forall x :: multiset(r)[x] == if p(x) then multiset(s)[x] else 0
  {
    assert s == [s[0]] + s[1..];
    assert multiset(s) == multiset{s[0]} + multiset(s[1..]);
    if p(s[0]) {
      assert multiset(r) == multiset{s[0]} + multiset(rest);
    }
  }

  /** `a` is `b` with some elements deleted and the rest kept in order. */
  predicate SubSeq<T(==)>(a: seq<T>, b: seq<T>)
    decreases |b|
  {
    |a| == 0 || (|b| > 0 && ((a[0] == b[0] && SubSeq(a[1..], b[1..])) || SubSeq(a, b[1..])))
  }

  /** Filtering keeps the survivors in their original relative order. */
  lemma {:induction false} FilterIsSubSeq<T(!new)>(s: seq<T>, p: T -> bool)
    ensures SubSeq(Filter(s, p), s)
    decreases |s|
  {
    if |s| > 0 {
      FilterIsSubSeq(s[1..], p);
      var r := Filter(s, p);
      if p(s[0]) {
        assert r[0] == s[0] && r[1..] == Filter(s[1..], p);
      }
    }
  }

  /** A filter that every element passes keeps the whole sequence. */
  lemma {:induction false} FilterAll<T(!new)>(s: seq<T>, p: T -> bool)
    requires forall i :: 0 <= i < |s| ==> p(s[i])
    ensures Filter(s, p) == s
    decreases |s|
  {
    if |s| > 0 {
      FilterAll(s[1..], p);
      assert [s[0]] + s[1..] == s;
    }
  }

  /** An element survives the filter exactly when it occurs in the input and passes. */
  lemma FilterMember<T(!new)>(s: seq<T>, p: T -> bool, x: T)
    ensures x in Filter(s, p) <==> x in s && p(x)
  {
    var r := Filter(s, p);
    if x in r {
      var i :| 0 <= i < |r| && r[i] == x;
      assert x in multiset(r);
    }
  }
}

=== FILE: session_manager.dfy ===
/**
 * SessionManager: a second session store over its own preferences file
 * (`user_session`). It keeps the same three keys and the same fail-closed
 * expiry as SharedPrefsHelper; it differs in that `isLoggedIn` always reads
 * the token, so it purges an expired session even when the logged-in flag
 * is unset.
 */
module SessionManager {
  import opened Wrappers
  import opened KeyValue
  import Jwt
  import SharedPrefs

  type Read<T> = SharedPrefs.Read<T>

  /** `saveUserSession(token, isAdmin)`: the same three writes as SharedPrefsHelper's. */
  function SaveUserSession(st: Store, token: string, isAdmin: bool): (st': Store)
    ensures GetString(st', SharedPrefs.KeyUserToken) == Some(token)
    ensures GetBoolean(st', SharedPrefs.KeyIsLoggedIn, false)
    ensures IsAdmin(st') == isAdmin
    ensures SameOutside(st, st', SharedPrefs.SessionKeys)
  {
    SharedPrefs.SaveUserSession(st, token, isAdmin)
  }

  /** `logoutUser()`: `editor.clear()` on this file. */
  function LogoutUser(st: Store): (st': Store)
    ensures st' == map[]
    ensures GetString(st', SharedPrefs.KeyUserToken).None?
    ensures !IsAdmin(st') && !GetBoolean(st', SharedPrefs.KeyIsLoggedIn, false)
  {
    SharedPrefs.ClearAll(st)
  }

  /** `getUserToken()`: the stored token, or null after `logoutUser()` when it has expired. */
  function GetUserToken(st: Store, nowMillis: nat, payloadExp: Jwt.ExpDecoder): (r: Read<Option<string>>)
    ensures r.value.Some? ==> r.value == GetString(st, SharedPrefs.KeyUserToken) && r.store == st
    ensures GetString(st, SharedPrefs.KeyUserToken).None? ==> r == SharedPrefs.Read(None, st)
    ensures GetString(st, SharedPrefs.KeyUserToken).Some? ==>
      (r.value.None? <==> Jwt.IsTokenExpired(GetString(st, SharedPrefs.KeyUserToken).value, nowMillis, payloadExp))
    ensures r.value.None? ==> r.store == st || r.store == LogoutUser(st)
    ensures GetString(st, SharedPrefs.KeyUserToken).Some? && r.value.None? ==> r.store == LogoutUser(st)
  {
    var token := GetString(st, SharedPrefs.KeyUserToken);
    if token.Some? && Jwt.IsTokenExpired(token.value, nowMillis, payloadExp) then
      SharedPrefs.Read(None, LogoutUser(st))
    else
      SharedPrefs.Read(token, st)
  }

  /** `isLoggedIn()`: reads the flag, then always reads the token (which may purge). */
  function IsLoggedIn(st: Store, nowMillis: nat, payloadExp: Jwt.ExpDecoder): (r: Read<bool>)
    ensures r.value <==> GetBoolean(st, SharedPrefs.KeyIsLoggedIn, false)
                         && GetUserToken(st, nowMillis, payloadExp).value.Some?
    ensures r.store == GetUserToken(st, nowMillis, payloadExp).store
  {
    var loggedIn := GetBoolean(st, SharedPrefs.KeyIsLoggedIn, false);
    var token := GetUserToken(st, nowMillis, payloadExp);
    SharedPrefs.Read(loggedIn && token.value.Some?, token.store)
  }

  /** `isAdmin()`: the stored flag, false by default. */
  function IsAdmin(st: Store): bool
  {
    GetBoolean(st, SharedPrefs.KeyIsAdmin, false)
  }

  /**
   * Unlike SharedPrefsHelper's, this `isLoggedIn` purges an expired session
   * even when the logged-in flag is unset.
   */
  lemma EagerPurgeDiffersFromHelper(st: Store, nowMillis: nat, payloadExp: Jwt.ExpDecoder)
    requires !GetBoolean(st, SharedPrefs.KeyIsLoggedIn, false)
    requires GetString(st, SharedPrefs.KeyUserToken).Some?
    requires Jwt.IsTokenExpired(GetString(st, SharedPrefs.KeyUserToken).value, nowMillis, payloadExp)
    ensures IsLoggedIn(st, nowMillis, payloadExp).store == map[]
    ensures SharedPrefs.IsLoggedIn(st, nowMillis, payloadExp).store == st
    ensures st != map[]
  {
  }

  /** After `logoutUser()` no token can be read and the user is neither admin nor logged in. */
  lemma LogoutSignsOut(st: Store, nowMillis: nat, payloadExp: Jwt.ExpDecoder)
    ensures GetUserToken(LogoutUser(st), nowMillis, payloadExp).value.None?
    ensures !IsAdmin(LogoutUser(st))
    ensures !IsLoggedIn(LogoutUser(st), nowMillis, payloadExp).value
  {
  }

  /** A freshly saved, unexpired session reads back whole, and logs the user in. */
  lemma SessionRoundTrip(st: Store, token: string, isAdmin: bool, nowMillis: nat, payloadExp: Jwt.ExpDecoder)
    requires !Jwt.IsTokenExpired(token, nowMillis, payloadExp)
    ensures var st' := SaveUserSession(st, token, isAdmin);
      && GetUserToken(st', nowMillis, payloadExp) == SharedPrefs.Read(Some(token), st')
      && IsLoggedIn(st', nowMillis, payloadExp).value
      && IsAdmin(st') == isAdmin
  {
  }
}

=== FILE: shared_prefs.dfy ===
/**
 * SharedPrefsHelper: the session, the offline feedback queue and the
 * per-category drafts, all in one preferences file. Every operation is a
 * pure function of the store; reads that may purge return the new store
 * beside their value.
 */
module SharedPrefs {
  import opened Wrappers
  import opened KeyValue
  import opened Assoc
  import Jwt
  import DraftCodec

  const KeyUserToken: string := "user_token"
  const KeyIsLoggedIn: string := "is_logged_in"
  const KeyIsAdmin: string := "is_admin"
  const KeyOfflineFeedback: string := "offline_feedback"
  const KeyDraftPrefix: string := "draft_feedback_"

  const SessionKeys: set<string> := {KeyUserToken, KeyIsLoggedIn, KeyIsAdmin}

  /** The value a read returns and the store it leaves behind. */
  datatype Read<T> = Read(value: T, store: Store)

  /** The key of one category's draft. */
  function DraftKey(category: string): string
  {
    KeyDraftPrefix + category
  }

  /** Draft keys never collide with each other or with the fixed keys. */
  lemma DraftKeyDistinct(c: string, c': string)
    ensures DraftKey(c) !in SessionKeys && DraftKey(c) != KeyOfflineFeedback
    ensures DraftKey(c) == DraftKey(c') ==> c == c'
  {
    assert DraftKey(c)[0] == 'd';
    assert KeyOfflineFeedback[0] == 'o';
    if DraftKey(c) == DraftKey(c') {
      assert DraftKey(c)[|KeyDraftPrefix|..] == c;
      assert DraftKey(c')[|KeyDraftPrefix|..] == c';
    }
  }

  /** Every key the helper reads holds a value of the type it reads there. */
  ghost predicate WellTyped(st: Store)
  {
    && (KeyUserToken in st ==> st[KeyUserToken].Str?)
    && (KeyIsLoggedIn in st ==> st[KeyIsLoggedIn].Flag?)
    && (KeyIsAdmin in st ==> st[KeyIsAdmin].Flag?)
    && (KeyOfflineFeedback in st ==> st[KeyOfflineFeedback].Records?)
    && (forall c :: DraftKey(c) in st ==> st[DraftKey(c)].Str?)
  }

  /** `saveUserSession(token, isAdmin)`. */
  function SaveUserSession(st: Store, token: string, isAdmin: bool): (st': Store)
    ensures GetString(st', KeyUserToken) == Some(token)
    ensures GetBoolean(st', KeyIsLoggedIn, false)
    ensures GetBoolean(st', KeyIsAdmin, !isAdmin) == isAdmin
    ensures SameOutside(st, st', SessionKeys)
    ensures WellTyped(st) ==> WellTyped(st')
  {
    forall c ensures DraftKey(c) !in SessionKeys { DraftKeyDistinct(c, c); }
    st[KeyUserToken := Str(token)][KeyIsLoggedIn := Flag(true)][KeyIsAdmin := Flag(isAdmin)]
  }

  /** `clearAll()`: `editor.clear()` empties the whole file. */
  function ClearAll(st: Store): Store
  {
    map[]
  }

  /** `getUserToken()`: the stored token, unless it is expired, in which case the whole file is cleared. */
  function GetUserToken(st: Store, nowMillis: nat, payloadExp: Jwt.ExpDecoder): (r: Read<Option<string>>)
    ensures r.value.Some? <==> (GetString(st, KeyUserToken).Some?
                                && !Jwt.IsTokenExpired(GetString(st, KeyUserToken).value, nowMillis, payloadExp))
    ensures r.value.Some? ==> r.value == GetString(st, KeyUserToken) && r.store == st
    ensures GetString(st, KeyUserToken).None? ==> r.store == st
    ensures GetString(st, KeyUserToken).Some? && r.value.None? ==> r.store == map[]
  {
    var token := GetString(st, KeyUserToken);
    if token.Some? && Jwt.IsTokenExpired(token.value, nowMillis, payloadExp) then
      Read(None, ClearAll(st))
    else
      Read(token, st)
  }

  /** `isLoggedIn()`: the flag, and only if it is set, a token read that may purge. */
  function IsLoggedIn(st: Store, nowMillis: nat, payloadExp: Jwt.ExpDecoder): (r: Read<bool>)
    ensures r.value <==> GetBoolean(st, KeyIsLoggedIn, false) && GetUserToken(st, nowMillis, payloadExp).value.Some?
    ensures !GetBoolean(st, KeyIsLoggedIn, false) ==> r.store == st
    ensures GetBoolean(st, KeyIsLoggedIn, false) ==> r.store == GetUserToken(st, nowMillis, payloadExp).store
  {
    if !GetBoolean(st, KeyIsLoggedIn, false) then Read(false, st)
    else
      var t := GetUserToken(st, nowMillis, payloadExp);
      Read(t.value.Some?, t.store)
  }

  /** `isAdmin()`: the stored flag, false when absent; the clock plays no part. */
  function IsAdmin(st: Store): bool
  {
    GetBoolean(st, KeyIsAdmin, false)
  }

  /** `getOfflineFeedback()`: the queued records, empty when nothing is stored. */
  function GetOfflineFeedback(st: Store): seq<Record>
  {
    GetRecords(st, KeyOfflineFeedback).GetOr([])
  }

  /** `saveOfflineFeedback(list)`: replaces the whole queue. */
  function SaveOfflineFeedback(st: Store, records: seq<Record>): (st': Store)
    ensures GetOfflineFeedback(st') == records
    ensures SameOutside(st, st', {KeyOfflineFeedback})
    ensures WellTyped(st) ==> WellTyped(st')
  {
    forall c ensures DraftKey(c) != KeyOfflineFeedback { DraftKeyDistinct(c, c); }
    st[KeyOfflineFeedback := Records(records)]
  }

  /** `clearOfflineFeedback()`. */
  function ClearOfflineFeedback(st: Store): (st': Store)
    ensures GetOfflineFeedback(st') == [] && KeyOfflineFeedback !in st'
    ensures SameOutside(st, st', {KeyOfflineFeedback})
    ensures WellTyped(st) ==> WellTyped(st')
  {
    st - {KeyOfflineFeedback}
  }

  /** `saveDraft(category, answers)`. */
  function SaveDraft(st: Store, category: string, answers: Entries): (st': Store)
    ensures DraftKey(category) in st'
    ensures SameOutside(st, st', {DraftKey(category)})
    ensures WellTyped(st) ==> WellTyped(st')
  {
    forall c ensures DraftKey(c) !in SessionKeys && DraftKey(c) != KeyOfflineFeedback { DraftKeyDistinct(c, c); }
    st[DraftKey(category) := Str(DraftCodec.Encode(answers))]
  }

  /** `loadDraft(category)`: the decoded draft, empty when none is stored. */
  function LoadDraft(st: Store, category: string): (m: Entries)
    ensures UniqueKeys(m)
  {
    match GetString(st, DraftKey(category))
    case None => []
    case Some(s) => DraftCodec.Decode(s)
  }

  /** `clearDraft(category)`. */
  function ClearDraft(st: Store, category: string): (st': Store)
    ensures LoadDraft(st', category) == [] && DraftKey(category) !in st'
    ensures SameOutside(st, st', {DraftKey(category)})
    ensures WellTyped(st) ==> WellTyped(st')
  {
    st - {DraftKey(category)}
  }

  /**
   * After `clearAll()` nothing survives: no token (so its own follow-up
   * `getUserToken()` finds none and changes nothing), no flags, no queue and
   * no draft of any category.
   */
  lemma ClearAllForgetsEverything(st: Store, nowMillis: nat, payloadExp: Jwt.ExpDecoder, category: string)
    ensures GetUserToken(ClearAll(st), nowMillis, payloadExp) == Read(None, ClearAll(st))
    ensures !IsAdmin(ClearAll(st)) && !GetBoolean(ClearAll(st), KeyIsLoggedIn, false)
    ensures GetOfflineFeedback(ClearAll(st)) == []
    ensures LoadDraft(ClearAll(st), category) == []
    ensures WellTyped(ClearAll(st))
  {
  }

  /**
   * Reading an expired token purges the whole file: the offline queue and
   * every draft go with the session.
   */
  lemma ExpiredReadWipesQueueAndDrafts(st: Store, nowMillis: nat, payloadExp: Jwt.ExpDecoder, category: string)
    requires GetString(st, KeyUserToken).Some?
    requires Jwt.IsTokenExpired(GetString(st, KeyUserToken).value, nowMillis, payloadExp)
    ensures GetUserToken(st, nowMillis, payloadExp).value.None?
    ensures var st' := GetUserToken(st, nowMillis, payloadExp).store;
      && GetString(st', KeyUserToken).None?
      && !IsAdmin(st')
      && !IsLoggedIn(st', nowMillis, payloadExp).value
      && GetOfflineFeedback(st') == []
      && LoadDraft(st', category) == []
  {
  }

  /**
   * `saveUserSession(t, a)` is read back: the admin flag is `a`, the
   * logged-in flag is set, and while `t` has not expired the token reads as
   * `t`, the user counts as logged in, and reading changes nothing.
   */
  lemma SessionRoundTrip(st: Store, token: string, isAdmin: bool, nowMillis: nat, payloadExp: Jwt.ExpDecoder)
    ensures IsAdmin(SaveUserSession(st, token, isAdmin)) == isAdmin
    ensures GetBoolean(SaveUserSession(st, token, isAdmin), KeyIsLoggedIn, false)
    ensures !Jwt.IsTokenExpired(token, nowMillis, payloadExp) ==>
      var st' := SaveUserSession(st, token, isAdmin);
      && GetUserToken(st', nowMillis, payloadExp) == Read(Some(token), st')
      && IsLoggedIn(st', nowMillis, payloadExp) == Read(true, st')
  {
  }

  /** Saving then loading a category's draft gives back the saved answers, in order. */
  lemma DraftRoundTrip(st: Store, category: string, answers: Entries)
    requires DraftCodec.Encodable(answers)
    ensures LoadDraft(SaveDraft(st, category, answers), category) == answers
  {
    DraftCodec.RoundTrip(answers);
  }

  /**
   * Saving or clearing one category's draft leaves every other category's
   * draft, the session and the offline queue as they were.
   */
  lemma DraftWritesAreLocal(st: Store, category: string, other: string, answers: Entries)
    requires other != category
    ensures LoadDraft(SaveDraft(st, category, answers), other) == LoadDraft(st, other)
    ensures LoadDraft(ClearDraft(st, category), other) == LoadDraft(st, other)
    ensures SameOutside(st, SaveDraft(st, category, answers), {DraftKey(category)})
    ensures SameOutside(st, ClearDraft(st, category), {DraftKey(category)})
    ensures GetOfflineFeedback(SaveDraft(st, category, answers)) == GetOfflineFeedback(st)
    ensures GetString(ClearDraft(st, category), KeyUserToken) == GetString(st, KeyUserToken)
  {
    DraftKeyDistinct(category, other);
  }

  /** Clearing the queue touches neither the session nor any draft. */
  lemma ClearQueueKeepsSessionAndDrafts(st: Store, category: string, nowMillis: nat, payloadExp: Jwt.ExpDecoder)
    ensures var st' := ClearOfflineFeedback(st);
      && GetUserToken(st', nowMillis, payloadExp).value == GetUserToken(st, nowMillis, payloadExp).value
      && IsAdmin(st') == IsAdmin(st)
      && LoadDraft(st', category) == LoadDraft(st, category)
  {
    DraftKeyDistinct(category, category);
  }
}

=== FILE: start_route.dfy ===
/**
 * MainActivity's auto-login: the start route chosen from the stored session.
 * The token is read twice, at clock readings `t1` then `t2`, with the admin
 * flag read in between.
 */
module StartRoute {
  import opened Wrappers
  import opened KeyValue
  import Jwt
  import SharedPrefs

  const LoginRoute: string := "login"

  /** The route navigated to at start-up and the store the reads leave behind. */
  function StartRoute(st: Store, t1: nat, t2: nat, payloadExp: Jwt.ExpDecoder): (r: SharedPrefs.Read<string>)
    ensures SharedPrefs.GetUserToken(st, t1, payloadExp).value.None? ==> r.value == LoginRoute
    ensures var t := SharedPrefs.GetUserToken(st, t1, payloadExp).value;
      t.Some? && !Jwt.IsTokenExpired(t.value, t2, payloadExp) ==>
        && r.store == st
        && r.value == (if SharedPrefs.IsAdmin(st) then "admin_dashboard/" + t.value else "home/" + t.value)
    ensures var t := SharedPrefs.GetUserToken(st, t1, payloadExp).value;
      t.Some? && Jwt.IsTokenExpired(t.value, t2, payloadExp) ==> r == SharedPrefs.Read(LoginRoute, map[])
  {
    var first := SharedPrefs.GetUserToken(st, t1, payloadExp);
    var isAdmin := SharedPrefs.IsAdmin(first.store);
    match first.value
    case None => SharedPrefs.Read(LoginRoute, first.store)
    case Some(token) =>
      var second := SharedPrefs.GetUserToken(first.store, t2, payloadExp);
      if second.value.None? then SharedPrefs.Read(LoginRoute, second.store)
      else if isAdmin then SharedPrefs.Read("admin_dashboard/" + token, second.store)
      else SharedPrefs.Read("home/" + token, second.store)
  }

  /** The decision with a single token read, as it behaves when the clock does not move. */
  function OneReadRoute(st: Store, now: nat, payloadExp: Jwt.ExpDecoder): string
  {
    var t := SharedPrefs.GetUserToken(st, now, payloadExp);
    match t.value
    case None => LoginRoute
    case Some(token) =>
      if SharedPrefs.IsAdmin(st) then "admin_dashboard/" + token else "home/" + token
  }

  /**
   * Under one clock reading the second token check can never fire: the route
   * is the single-read decision, a valid token leads to the admin dashboard
   * or home by the stored flag, and the store is untouched.
   */
  lemma SecondCheckUnreachableUnderFixedClock(st: Store, now: nat, payloadExp: Jwt.ExpDecoder)
    ensures StartRoute(st, now, now, payloadExp).value == OneReadRoute(st, now, payloadExp)
    ensures SharedPrefs.GetUserToken(st, now, payloadExp).value.Some? ==>
      var token := SharedPrefs.GetUserToken(st, now, payloadExp).value.value;
      && StartRoute(st, now, now, payloadExp).store == st
      && StartRoute(st, now, now, payloadExp).value
         == (if SharedPrefs.IsAdmin(st) then "admin_dashboard/" + token else "home/" + token)
  {
  }

  /**
   * An expired token sends the user to login, and the admin flag is read from
   * the already purged store, so it reads false.
   */
  lemma ExpiredTokenRoutesToLogin(st: Store, t1: nat, t2: nat, payloadExp: Jwt.ExpDecoder)
    requires GetString(st, SharedPrefs.KeyUserToken).Some?
    requires Jwt.IsTokenExpired(GetString(st, SharedPrefs.KeyUserToken).value, t1, payloadExp)
    ensures StartRoute(st, t1, t2, payloadExp) == SharedPrefs.Read(LoginRoute, map[])
    ensures !SharedPrefs.IsAdmin(SharedPrefs.GetUserToken(st, t1, payloadExp).store)
  {
  }

  /**
   * When the token expires between the two reads the second check catches it:
   * login, with the store purged.
   */
  lemma ExpiryBetweenReadsRoutesToLogin(st: Store, t1: nat, t2: nat, payloadExp: Jwt.ExpDecoder)
    requires GetString(st, SharedPrefs.KeyUserToken).Some?
    requires !Jwt.IsTokenExpired(GetString(st, SharedPrefs.KeyUserToken).value, t1, payloadExp)
    requires Jwt.IsTokenExpired(GetString(st, SharedPrefs.KeyUserToken).value, t2, payloadExp)
    ensures StartRoute(st, t1, t2, payloadExp) == SharedPrefs.Read(LoginRoute, map[])
  {
  }
}

=== FILE: template_edit.dfy ===
/**
 * ManageFeedbackQuestionsScreen's EditFeedbackQuestionSection: two edit
 * buffers, the question texts and the choice lists, indexed like the
 * template's questions, and the payload zipped from them on Save Changes.
 */
module TemplateEdit {
  import opened Api
  import AdminFeedback

  /** The edit buffers: `updatedQuestions` and `updatedChoices`. */
  datatype Buffers = Buffers(questions: seq<string>, choices: seq<seq<string>>)

  /** The buffers line up with the template: one question text and one choice list per template question, same choice counts. */
  predicate Aligned(t: FeedbackTemplate, b: Buffers)
  {
    && |b.questions| == |t.questions|
    && |b.choices| == |t.questions|
    && forall i :: 0 <= i < |t.questions| ==> |b.choices[i]| == |t.questions[i].choices|
  }

  /** The buffers as first remembered: the template's texts and a copy of each choice list. */
  function InitBuffers(t: FeedbackTemplate): (b: Buffers)
    ensures Aligned(t, b)
    ensures forall i :: 0 <= i < |t.questions| ==>
      b.questions[i] == t.questions[i].question && b.choices[i] == t.questions[i].choices
  {
    Buffers(seq(|t.questions|, i requires 0 <= i < |t.questions| => t.questions[i].question),
            seq(|t.questions|, i requires 0 <= i < |t.questions| => t.questions[i].choices))
  }

  /** Typing into the field of question `i`. */
  function EditQuestion(b: Buffers, i: nat, text: string): (b': Buffers)
    requires i < |b.questions|
    ensures b'.choices == b.choices && |b'.questions| == |b.questions|
    ensures b'.questions[i] == text
    ensures forall k :: 0 <= k < |b.questions| && k != i ==> b'.questions[k] == b.questions[k]
  {
    b.(questions := b.questions[i := text])
  }

  /** Typing into the field of choice `j` of question `i`. */
  function EditChoice(b: Buffers, i: nat, j: nat, text: string): (b': Buffers)
    requires i < |b.choices| && j < |b.choices[i]|
    ensures b'.questions == b.questions && |b'.choices| == |b.choices|
    ensures |b'.choices[i]| == |b.choices[i]| && b'.choices[i][j] == text
    ensures forall m :: 0 <= m < |b.choices[i]| && m != j ==> b'.choices[i][m] == b.choices[i][m]
    ensures forall k :: 0 <= k < |b.choices| && k != i ==> b'.choices[k] == b.choices[k]
  {
    b.(choices := b.choices[i := b.choices[i][j := text]])
  }

  /** Both edits keep the buffers lined up with the template. */
  lemma EditsKeepAlignment(t: FeedbackTemplate, b: Buffers, i: nat, j: nat, text: string)
    requires Aligned(t, b)
    ensures i < |b.questions| ==> Aligned(t, EditQuestion(b, i, text))
    ensures i < |b.choices| && j < |b.choices[i]| ==> Aligned(t, EditChoice(b, i, j, text))
  {
  }

  /** A list of strings as a request value. */
  function Strings(ss: seq<string>): Dyn
  {
    DList(seq(|ss|, k requires 0 <= k < |ss| => DStr(ss[k])))
  }

  /** Save Changes: question `k`'s text paired with choice list `k`. */
  function Payload(b: Buffers): (p: seq<AdminFeedback.QuestionPayload>)
    requires |b.choices| >= |b.questions|
    ensures |p| == |b.questions|
    ensures forall k :: 0 <= k < |b.questions| ==>
      p[k] == map["question" := DStr(b.questions[k]), "choices" := Strings(b.choices[k])]
  {
    seq(|b.questions|, k requires 0 <= k < |b.questions| =>
      map["question" := DStr(b.questions[k]), "choices" := Strings(b.choices[k])])
  }

  /** The payload of any buffers lined up with the template has one entry per template question. */
  lemma PayloadMatchesTemplateSize(t: FeedbackTemplate, b: Buffers)
    requires Aligned(t, b)
    ensures |Payload(b)| == |t.questions|
  {
  }

  /** Saving without edits sends the template's own questions back. */
  lemma UneditedPayloadIsTemplate(t: FeedbackTemplate)
    ensures var p := Payload(InitBuffers(t));
      && |p| == |t.questions|
      && forall k :: 0 <= k < |t.questions| ==>
           p[k]["question"] == DStr(t.questions[k].question) && p[k]["choices"] == Strings(t.questions[k].choices)
  {
  }

  /** One keystroke-level edit; a step naming a field the screen does not show is skipped. */
  datatype Edit = QuestionEdit(i: nat, text: string) | ChoiceEdit(i: nat, j: nat, choice: string)

  function Apply(b: Buffers, e: Edit): Buffers
  {
    match e
    case QuestionEdit(i, text) => if i < |b.questions| then EditQuestion(b, i, text) else b
    case ChoiceEdit(i, j, text) => if i < |b.choices| && j < |b.choices[i]| then EditChoice(b, i, j, text) else b
  }

  function ApplyAll(b: Buffers, es: seq<Edit>): Buffers
    decreases |es|
  {
    if |es| == 0 then b else ApplyAll(Apply(b, es[0]), es[1..])
  }

  /** However the admin edits, the saved payload has exactly as many questions as the template. */
  lemma {:induction false} EditedPayloadKeepsSize(t: FeedbackTemplate, b: Buffers, es: seq<Edit>)
    requires Aligned(t, b)
    ensures Aligned(t, ApplyAll(b, es))
    ensures |Payload(ApplyAll(b, es))| == |t.questions|
    decreases |es|
  {
    if |es| > 0 {
      match es[0] {
        case QuestionEdit(i, text) => EditsKeepAlignment(t, b, i, 0, text);
        case ChoiceEdit(i, j, text) => EditsKeepAlignment(t, b, i, j, text);
      }
      EditedPayloadKeepsSize(t, Apply(b, es[0]), es[1..]);
    }
  }

  /**
   * The edit section at one position of the template list: the template
   * shown there and the buffers it remembers. The buffers are remembered
   * without a key and the list items carry none, so they belong to the
   * position, not to the template.
   */
  datatype Section = Section(template: FeedbackTemplate, buffers: Buffers)

  /** The update Save Changes sends: the shown template's category with the zipped buffers. */
  datatype UpdateRequest = UpdateRequest(category: string, questions: seq<AdminFeedback.QuestionPayload>)

  /** Expanding a card: fresh buffers for its template. */
  function OpenSection(t: FeedbackTemplate): (s: Section)
    ensures s.template == t && Aligned(t, s.buffers)
  {
    Section(t, InitBuffers(t))
  }

  /** A refresh of the list puts template `t'` at this position, as written: the buffers stay. */
  function Refresh(s: Section, t': FeedbackTemplate): (s': Section)
    ensures s'.template == t' && s'.buffers == s.buffers
  {
    s.(template := t')
  }

  /** A refresh with the buffers keyed on the template: a changed template gets fresh buffers. */
  function RefreshKeyed(s: Section, t': FeedbackTemplate): (s': Section)
    ensures s'.template == t'
    ensures t' == s.template ==> s' == s
    ensures t' != s.template ==> s'.buffers == InitBuffers(t')
  {
    if t' == s.template then s else OpenSection(t')
  }

  /** Drawing the section reads `updatedQuestions[i]` and `updatedChoices[i]` for every question index of the shown template. */
  predicate RendersInRange(s: Section)
  {
    |s.template.questions| <= |s.buffers.questions| && |s.template.questions| <= |s.buffers.choices|
  }

  /** Save Changes, when the buffers zip. */
  function SaveChanges(s: Section): (r: UpdateRequest)
    requires |s.buffers.choices| >= |s.buffers.questions|
    ensures r.category == s.template.category
    ensures r.questions == Payload(s.buffers)
  {
    UpdateRequest(s.template.category, Payload(s.buffers))
  }

  /**
   * As written, after a refresh that puts a template with more questions at
   * an expanded card's position, drawing indexes past the kept buffers; one
   * with the same number of questions but another category is saved with
   * the texts and choices of the template that was there before.
   */
  lemma StaleBuffersAfterRefresh(t: FeedbackTemplate, t': FeedbackTemplate)
    ensures |t'.questions| > |t.questions| ==> !RendersInRange(Refresh(OpenSection(t), t'))
    ensures var r := SaveChanges(Refresh(OpenSection(t), t'));
      && r.category == t'.category
      && |r.questions| == |t.questions|
      && forall k :: 0 <= k < |t.questions| ==>
           r.questions[k]["question"] == DStr(t.questions[k].question) && r.questions[k]["choices"] == Strings(t.questions[k].choices)
  {
    UneditedPayloadIsTemplate(t);
  }

  /**
   * With the buffers keyed on the template, a refresh never leaves them out
   * of line, and saving without edits sends the newly shown template back
   * under its own category.
   */
  lemma KeyedRefreshStaysAligned(s: Section, t': FeedbackTemplate)
    requires Aligned(s.template, s.buffers)
    ensures Aligned(t', RefreshKeyed(s, t').buffers) && RendersInRange(RefreshKeyed(s, t'))
    ensures t' != s.template ==>
      var r := SaveChanges(RefreshKeyed(s, t'));
      && r.category == t'.category
      && |r.questions| == |t'.questions|
      && forall k :: 0 <= k < |t'.questions| ==>
           r.questions[k]["question"] == DStr(t'.questions[k].question) && r.questions[k]["choices"] == Strings(t'.questions[k].choices)
  {
    if t' != s.template {
      UneditedPayloadIsTemplate(t');
    }
  }
}

=== FILE: template_editor.dfy ===
/**
 * CreateFeedbackQuestionsScreen: the list of questions being written, the
 * edits its buttons make, and the validation and payload of Save Questions.
 */
module TemplateEditor {
  import opened Wrappers
  import opened Api
  import Text
  import Seqs
  import AdminFeedback

  /** One question being written, with its choices. */
  datatype QuestionWithChoices = QuestionWithChoices(question: string, choices: seq<string>)

  const NeedsCategoryMessage: string := "Please select a category!"
  const NeedsFilledMessage: string := "All questions and choices must be filled!"

  /** Add Question: a blank question with one blank choice at the end. */
  function AddQuestion(qs: seq<QuestionWithChoices>): (r: seq<QuestionWithChoices>)
    ensures |r| == |qs| + 1 && r[..|qs|] == qs
    ensures r[|qs|] == QuestionWithChoices("", [""])
  {
    qs + [QuestionWithChoices("", [""])]
  }

  /** Question `i` with its text replaced. */
  function UpdateQuestion(qs: seq<QuestionWithChoices>, i: nat, text: string): (r: seq<QuestionWithChoices>)
    requires i < |qs|
    ensures |r| == |qs|
    ensures r[i] == QuestionWithChoices(text, qs[i].choices)
    ensures forall k :: 0 <= k < |qs| && k != i ==> r[k] == qs[k]
  {
    qs[i := qs[i].(question := text)]
  }

  /** A blank choice appended to question `i`. */
  function AddChoice(qs: seq<QuestionWithChoices>, i: nat): (r: seq<QuestionWithChoices>)
    requires i < |qs|
    ensures |r| == |qs|
    ensures r[i].question == qs[i].question && r[i].choices == qs[i].choices + [""]
    ensures forall k :: 0 <= k < |qs| && k != i ==> r[k] == qs[k]
  {
    qs[i := qs[i].(choices := qs[i].choices + [""])]
  }

  /** Choice `j` of question `i` set to `text`. */
  function UpdateChoice(qs: seq<QuestionWithChoices>, i: nat, j: nat, text: string): (r: seq<QuestionWithChoices>)
    requires i < |qs| && j < |qs[i].choices|
    ensures |r| == |qs| && r[i].question == qs[i].question
    ensures |r[i].choices| == |qs[i].choices| && r[i].choices[j] == text
    ensures forall m :: 0 <= m < |qs[i].choices| && m != j ==> r[i].choices[m] == qs[i].choices[m]
    ensures forall k :: 0 <= k < |qs| && k != i ==> r[k] == qs[k]
  {
    qs[i := qs[i].(choices := qs[i].choices[j := text])]
  }

  /** Choice `j` of question `i` removed. */
  function RemoveChoice(qs: seq<QuestionWithChoices>, i: nat, j: nat): (r: seq<QuestionWithChoices>)
    requires i < |qs| && j < |qs[i].choices|
    ensures |r| == |qs| && r[i].question == qs[i].question
    ensures r[i].choices == qs[i].choices[..j] + qs[i].choices[j + 1..]
    ensures forall k :: 0 <= k < |qs| && k != i ==> r[k] == qs[k]
  {
    qs[i := qs[i].(choices := qs[i].choices[..j] + qs[i].choices[j + 1..])]
  }

  /** Question `i` removed; the others keep their order. */
  function RemoveQuestion(qs: seq<QuestionWithChoices>, i: nat): (r: seq<QuestionWithChoices>)
    requires i < |qs|
    ensures |r| == |qs| - 1
    ensures forall k :: 0 <= k < i ==> r[k] == qs[k]
    ensures forall k :: i <= k < |r| ==> r[k] == qs[k + 1]
  {
    qs[..i] + qs[i + 1..]
  }

  /** Some question text or some choice is blank. */
  predicate HasBlank(qs: seq<QuestionWithChoices>)
  {
    exists i :: 0 <= i < |qs| && (Text.IsBlank(qs[i].question) || exists j :: 0 <= j < |qs[i].choices| && Text.IsBlank(qs[i].choices[j]))
  }

  /** `choices.filter { it.isNotBlank() }`. */
  function NonBlank(choices: seq<string>): (r: seq<string>)
    ensures forall k :: 0 <= k < |r| ==> !Text.IsBlank(r[k])
  {
    Seqs.Filter(choices, (c: string) => !Text.IsBlank(c))
  }

  /** One question in the request format. */
  function QuestionPayload(q: QuestionWithChoices): AdminFeedback.QuestionPayload
  {
    map["question" := DStr(q.question), "choices" := DList(seq(|NonBlank(q.choices)|,
      k requires 0 <= k < |NonBlank(q.choices)| => DStr(NonBlank(q.choices)[k])))]
  }

  /**
   * Save Questions: rejected without a category (`isEmpty`, so a category of
   * spaces passes) or with a blank question or choice; otherwise the
   * payload handed to `createFeedbackTemplate`.
   */
  function SaveQuestions(category: string, qs: seq<QuestionWithChoices>): (r: Result<seq<AdminFeedback.QuestionPayload>>)
    ensures category == "" ==> r == Rejected(NeedsCategoryMessage)
    ensures category != "" && HasBlank(qs) ==> r == Rejected(NeedsFilledMessage)
    ensures r.Ok? <==> category != "" && !HasBlank(qs)
    ensures r.Ok? ==> |r.value| == |qs|
    ensures r.Ok? ==> forall i :: 0 <= i < |qs| ==>
      r.value[i] == map["question" := DStr(qs[i].question),
                        "choices" := DList(seq(|qs[i].choices|, k requires 0 <= k < |qs[i].choices| => DStr(qs[i].choices[k])))]
  {
    if category == "" then Rejected(NeedsCategoryMessage)
    else if HasBlank(qs) then Rejected(NeedsFilledMessage)
    else
      ValidatedChoicesKept(qs);
      Ok(seq(|qs|, i requires 0 <= i < |qs| => QuestionPayload(qs[i])))
  }

  /** After validation the blank-choice filter removes nothing. */
  lemma ValidatedChoicesKept(qs: seq<QuestionWithChoices>)
    requires !HasBlank(qs)
    ensures forall i :: 0 <= i < |qs| ==> NonBlank(qs[i].choices) == qs[i].choices
  {
    forall i | 0 <= i < |qs| ensures NonBlank(qs[i].choices) == qs[i].choices {
      Seqs.FilterAll(qs[i].choices, (c: string) => !Text.IsBlank(c));
    }
  }

  /** A saved payload passes the view-model's formatting unchanged. */
  lemma SavedPayloadSurvivesFormatting(category: string, qs: seq<QuestionWithChoices>)
    requires SaveQuestions(category, qs).Ok?
    ensures AdminFeedback.FormatQuestions(SaveQuestions(category, qs).value) == SaveQuestions(category, qs).value
  {
    AdminFeedback.WellShapedQuestionsUnchanged(SaveQuestions(category, qs).value);
  }

  /** A freshly added question blocks saving until it is filled in. */
  lemma NewQuestionBlocksSave(category: string, qs: seq<QuestionWithChoices>)
    ensures SaveQuestions(category, AddQuestion(qs)).Rejected?
  {
    var r := AddQuestion(qs);
    assert Text.IsBlank(r[|qs|].question);
  }
}

=== FILE: text.dfy ===
/**
 * String helpers with Kotlin's semantics: `split` on a one-character
 * delimiter, `joinToString`, `isBlank`, ASCII case folding, case-insensitive
 * `contains`, lexicographic `compareTo` and decimal `toString` of a `Long`.
 */
module Text {

  /** Kotlin's `s.split(d)`: the pieces between delimiters, with empty pieces kept. */
  function Split(s: string, d: char): (parts: seq<string>)
    ensures |parts| >= 1
    ensures forall i :: 0 <= i < |parts| ==> d !in parts[i]
    decreases |s|
  {
    if |s| == 0 then [""]
    else
      var rest := Split(s[1..], d);
      if s[0] == d then [""] + rest
      else [[s[0]] + rest[0]] + rest[1..]
  }

  /** Kotlin's `parts.joinToString(sep)`. */
  function Join(parts: seq<string>, sep: string): string
    decreases |parts|
  {
    if |parts| == 0 then ""
    else if |parts| == 1 then parts[0]
    else parts[0] + sep + Join(parts[1..], sep)
  }

  /** Number of occurrences of `d` in `s`. */
  function Count(s: string, d: char): nat
    decreases |s|
  {
    if |s| == 0 then 0 else (if s[0] == d then 1 else 0) + Count(s[1..], d)
  }

  /** Splitting yields one more piece than there are delimiters. */
  lemma {:induction false} SplitCount(s: string, d: char)
    ensures |Split(s, d)| == Count(s, d) + 1
    decreases |s|
  {
    if |s| > 0 {
      SplitCount(s[1..], d);
    }
  }

  /** A delimiter-free prefix fuses with the first piece of what follows. */
  lemma {:induction false} SplitPrefix(p: string, rest: string, d: char)
    requires d !in p
    ensures Split(p + rest, d) == [p + Split(rest, d)[0]] + Split(rest, d)[1..]
    decreases |p|
  {
    if |p| == 0 {
      var parts := Split(rest, d);
      assert p + rest == rest;
      assert p + parts[0] == parts[0];
      assert [parts[0]] + parts[1..] == parts;
    } else {
      var s := p + rest;
      assert s[0] == p[0];
      assert s[1..] == p[1..] + rest;
      SplitPrefix(p[1..], rest, d);
      assert [p[0]] + (p[1..] + Split(rest, d)[0]) == p + Split(rest, d)[0];
    }
  }

  /** `split` undoes `joinToString` when no piece holds the delimiter. */
  lemma {:induction false} SplitJoin(parts: seq<string>, d: char)
    requires |parts| >= 1
    requires forall i :: 0 <= i < |parts| ==> d !in parts[i]
    ensures Split(Join(parts, [d]), d) == parts
    decreases |parts|
  {
    if |parts| == 1 {
      SplitPrefix(parts[0], "", d);
      assert parts[0] + "" == parts[0];
    } else {
      var tail := Join(parts[1..], [d]);
      SplitJoin(parts[1..], d);
      assert Join(parts, [d]) == parts[0] + ([d] + tail);
      SplitPrefix(parts[0], [d] + tail, d);
      assert ([d] + tail)[1..] == tail;
      assert Split([d] + tail, d) == [""] + parts[1..];
      assert parts[0] + "" == parts[0];
      assert [parts[0]] + parts[1..] == parts;
    }
  }

  /** Kotlin's `Char.isWhitespace()`: Java whitespace or a Unicode space separator. */
  predicate IsWhitespace(c: char) {
    var n := c as int;
    (0x09 <= n <= 0x0D) || (0x1C <= n <= 0x20) || n == 0xA0 || n == 0x1680
    || (0x2000 <= n <= 0x200A) || n == 0x2028 || n == 0x2029 || n == 0x202F
    || n == 0x205F || n == 0x3000
  }

  /** Kotlin's `isBlank()`: empty or whitespace only. */
  predicate IsBlank(s: string) {
    forall i :: 0 <= i < |s| ==> IsWhitespace(s[i])
  }

  /** ASCII lower-casing of one character. */
  function LowerChar(c: char): char {
    if 'A' <= c <= 'Z' then (c as int + 32) as char else c
  }

  /** `lowercase()`, restricted to ASCII letters. */
  function Lower(s: string): (r: string)
    ensures |r| == |s|
    ensures forall i :: 0 <= i < |s| ==> r[i] == LowerChar(s[i])
  {
    seq(|s|, i requires 0 <= i < |s| => LowerChar(s[i]))
  }

  /** `s` begins with `q`, comparing characters without regard to ASCII case. */
  predicate StartsWithIgnoreCase(s: string, q: string) {
    |q| <= |s| && forall i :: 0 <= i < |q| ==> LowerChar(s[i]) == LowerChar(q[i])
  }

  /** `s.contains(q, ignoreCase = true)`, scanning start positions left to right. */
  predicate ContainsIgnoreCase(s: string, q: string)
    decreases |s|
  {
    StartsWithIgnoreCase(s, q) || (|s| > 0 && ContainsIgnoreCase(s[1..], q))
  }

  /** The scan finds `q` exactly when some position of `s` starts a match. */
  lemma {:induction false} ContainsIgnoreCaseAt(s: string, q: string)
    ensures ContainsIgnoreCase(s, q) <==> exists i :: 0 <= i <= |s| && StartsWithIgnoreCase(s[i..], q)
    decreases |s|
  {
    if StartsWithIgnoreCase(s, q) {
      assert s[0..] == s;
    }
    if |s| > 0 {
      ContainsIgnoreCaseAt(s[1..], q);
      if ContainsIgnoreCase(s[1..], q) {
        var i :| 0 <= i <= |s[1..]| && StartsWithIgnoreCase(s[1..][i..], q);
        assert s[1..][i..] == s[i + 1..];
      }
      if exists i :: 0 <= i <= |s| && StartsWithIgnoreCase(s[i..], q) {
        var i :| 0 <= i <= |s| && StartsWithIgnoreCase(s[i..], q);
        if i > 0 {
          assert s[1..][i - 1..] == s[i..];
        }
      }
    } else {
      if exists i :: 0 <= i <= |s| && StartsWithIgnoreCase(s[i..], q) {
        var i :| 0 <= i <= |s| && StartsWithIgnoreCase(s[i..], q);
        assert s[i..] == s;
      }
    }
  }

  /** A match at a known position is found by the scan. */
  lemma ContainsIgnoreCaseWitness(s: string, q: string, i: nat)
    requires i <= |s| && StartsWithIgnoreCase(s[i..], q)
    ensures ContainsIgnoreCase(s, q)
  {
    ContainsIgnoreCaseAt(s, q);
  }

  /** String `compareTo(...) <= 0`: lexicographic by character, a proper prefix first. */
  predicate StrLe(a: string, b: string)
    decreases |a|
  {
    |a| == 0 || (|b| > 0 && (a[0] < b[0] || (a[0] == b[0] && StrLe(a[1..], b[1..]))))
  }

  lemma {:induction false} StrLeTotal(a: string, b: string)
    ensures StrLe(a, b) || StrLe(b, a)
    decreases |a|
  {
    if |a| > 0 && |b| > 0 && a[0] == b[0] {
      StrLeTotal(a[1..], b[1..]);
    }
  }

  lemma {:induction false} StrLeTrans(a: string, b: string, c: string)
    requires StrLe(a, b) && StrLe(b, c)
    ensures StrLe(a, c)
    decreases |a|
  {
    if |a| > 0 && a[0] == b[0] && b[0] == c[0] {
      StrLeTrans(a[1..], b[1..], c[1..]);
    }
  }

  /** The decimal digit for `d`. */
  function DigitChar(d: nat): char
    requires d < 10
  {
    "0123456789"[d]
  }

  /** `Long.toString()` of a non-negative value. */
  function NatToString(n: nat): (s: string)
    ensures |s| >= 1
    ensures forall i :: 0 <= i < |s| ==> '0' <= s[i] <= '9'
    decreases n
  {
    if n < 10 then [DigitChar(n)] else NatToString(n / 10) + [DigitChar(n % 10)]
  }

  /** Reads a string of decimal digits back as a number. */
  function ParseNat(s: string): nat
    decreases |s|
  {
    if |s| == 0 then 0
    else ParseNat(s[..|s| - 1]) * 10 + (if '0' <= s[|s| - 1] <= '9' then s[|s| - 1] as int - '0' as int else 0)
  }

  /** The decimal rendering reads back as the same number. */
  lemma {:induction false} ParseNatToString(n: nat)
    ensures ParseNat(NatToString(n)) == n
    decreases n
  {
    var s := NatToString(n);
    if n >= 10 {
      ParseNatToString(n / 10);
      assert s[..|s| - 1] == NatToString(n / 10);
    }
  }
}

=== FILE: user_list.dfy ===
/**
 * ManageUsersScreen: how the shown user list changes after the server
 * answers an update or a delete. The server's answer is an input.
 */
module UserList {
  import opened Wrappers
  import opened Api
  import Seqs

  /** The list after a delete of `id`: every user with that id gone, the rest in order; unchanged on failure. */
  function AfterDelete(users: seq<UserProfile>, id: string, success: bool): (r: seq<UserProfile>)
    ensures !success ==> r == users
    ensures success ==> Seqs.SubSeq(r, users)
    ensures success ==> forall u :: u in r <==> u in users && u.id != id
    ensures success ==> forall u :: multiset(r)[u] == if u.id != id then multiset(users)[u] else 0
  {
    if success then
      Seqs.FilterIsSubSeq(users, (u: UserProfile) => u.id != id);
      Without(users, id)
    else users
  }

  /** `users.filter { it._id != id }`. */
  function Without(users: seq<UserProfile>, id: string): (r: seq<UserProfile>)
    ensures forall u :: u in r <==> u in users && u.id != id
    ensures forall u :: multiset(r)[u] == if u.id != id then multiset(users)[u] else 0
    ensures Seqs.SubSeq(r, users)
  {
    Seqs.FilterIsSubSeq(users, (u: UserProfile) => u.id != id);
    var r := Seqs.Filter(users, (u: UserProfile) => u.id != id);
    forall u ensures u in r <==> u in users && u.id != id {
      Seqs.FilterMember(users, (u: UserProfile) => u.id != id, u);
    }
    r
  }

  /** `users.map { if (it._id == updated._id) updated else it }`. */
  function ReplaceById(users: seq<UserProfile>, updated: UserProfile): (r: seq<UserProfile>)
    ensures |r| == |users|
    ensures forall i :: 0 <= i < |users| ==> r[i] == if users[i].id == updated.id then updated else users[i]
  {
    seq(|users|, i requires 0 <= i < |users| => if users[i].id == updated.id then updated else users[i])
  }

  /** The list after an update: replaced by id when the server succeeded with a user, unchanged otherwise. */
  function AfterUpdate(users: seq<UserProfile>, success: bool, updated: Option<UserProfile>): (r: seq<UserProfile>)
    ensures !(success && updated.Some?) ==> r == users
    ensures success && updated.Some? ==> r == ReplaceById(users, updated.value)
  {
    if success && updated.Some? then ReplaceById(users, updated.value) else users
  }

  /** An update touches only the entries with the updated id; applying it twice is applying it once. */
  lemma ReplaceByIdIdempotent(users: seq<UserProfile>, updated: UserProfile)
    ensures ReplaceById(ReplaceById(users, updated), updated) == ReplaceById(users, updated)
    ensures forall u :: u in users && u.id != updated.id ==> u in ReplaceById(users, updated)
  {
  }

  /** An update keeps every position's id, and the updated user shows wherever its id was listed. */
  lemma UpdateKeepsIds(users: seq<UserProfile>, updated: UserProfile)
    ensures forall i :: 0 <= i < |users| ==> ReplaceById(users, updated)[i].id == users[i].id
    ensures (exists i :: 0 <= i < |users| && users[i].id == updated.id) ==> updated in ReplaceById(users, updated)
  {
    if exists i :: 0 <= i < |users| && users[i].id == updated.id {
      var i :| 0 <= i < |users| && users[i].id == updated.id;
      assert ReplaceById(users, updated)[i] == updated;
    }
  }

  /** Deleting after an update leaves no user with that id: the two operations commute on what remains. */
  lemma DeleteAfterUpdate(users: seq<UserProfile>, updated: UserProfile)
    ensures Without(ReplaceById(users, updated), updated.id) == Without(users, updated.id)
  {
    DeleteAfterUpdateBy(users, updated);
  }

  /** The same, stated on the filters: the entries with another id are untouched by the update. */
  lemma {:induction false} DeleteAfterUpdateBy(users: seq<UserProfile>, updated: UserProfile)
    ensures Seqs.Filter(ReplaceById(users, updated), (u: UserProfile) => u.id != updated.id)
         == Seqs.Filter(users, (u: UserProfile) => u.id != updated.id)
    decreases |users|
  {
    if |users| > 0 {
      var keep := (u: UserProfile) => u.id != updated.id;
      var replaced := ReplaceById(users, updated);
      DeleteAfterUpdateBy(users[1..], updated);
      assert replaced[1..] == ReplaceById(users[1..], updated);
      assert Seqs.Filter(replaced, keep)
          == (if keep(replaced[0]) then [replaced[0]] else []) + Seqs.Filter(replaced[1..], keep);
      assert Seqs.Filter(users, keep)
          == (if keep(users[0]) then [users[0]] else []) + Seqs.Filter(users[1..], keep);
    }
  }
}

=== FILE: wrappers.dfy ===
/** Nullable values and fallible results, as the Kotlin source uses `T?` and early returns. */
module Wrappers {

  /** A Kotlin nullable: `None` is `null`. */
  datatype Option<+T> = None | Some(value: T) {

    /** The value, or `default` when null (Kotlin's `?:`). */
    function GetOr(default: T): T {
      match this
      case Some(v) => v
      case None => default
    }
  }

  /** The outcome of a guarded action: the accepted value or the message shown instead. */
  datatype Result<+R> = Ok(value: R) | Rejected(message: string)
}
